=== FILE: README.md ===
# aide-code-editor: the inline-suggestion core, in Dafny

This project models the decision logic of the playground editor in
aide-code-editor, a browser IDE with AI inline completions. It covers:

- **the trigger-context analyzer** (`CodeAnalyzer`): given the buffer text, a
  zero-based line and a column, it cuts the cursor line, measures the
  indentation, scans upward for an opening brace, an enclosing function or
  class and the last non-blank line, and decides whether a suggestion should
  be requested;
- **the suggestion lifecycle manager** (`SuggestionManager`): show, clear,
  accept and reject a single pending suggestion, the position and
  change-provenance checks, and the inline-completion provider's filter;
- **four small classifiers**: the file tree's extension-to-language switch
  (`FileUtils`), the Monaco editor's extension-to-language table
  (`CodeEditor`), the keyboard-shortcut dispatch (`EditorShortcuts`), and the
  responsive breakpoints of the chat panel (`Responsive`).

`JsStrings` supplies the JavaScript string operations these rely on:

- `split`, `substring` with clamping and swapping, `trim` over the
  ECMAScript white-space set, `replace(/c/g, "")` and ASCII `toLowerCase`.
- Every regular expression of the analyzer is a hand-written predicate over
  these.

`Options` is the `null`/`undefined` stand-in.

The suggestion manager is a class with mutable fields in the source. Here it
is a set of pure transitions on a `World` value. A `World` holds:

- the manager's three fields;
- an abstract editor `Host`. Its flags fix what the editor does: the cursor
  it reports, whether an edit applies, whether the accept callback throws,
  and whether applying the edit re-enters the manager. Its logs record what
  the manager did: edits, editor commands, provider registrations and
  disposals, cursor moves, and callback counts.

`Consistent` is the invariant every operation preserves: a suggestion is
pending exactly when one provider handle is held, that handle is the only
live one, and no accept is in progress between calls.

Three behaviours of the code are easy to get wrong:

- A line made of `//` and a note never triggers a suggestion.
  `shouldTriggerSuggestion` (code-analyzer.tsx:66) returns false as soon as
  `isInComment` holds, before `isAfterComment` (line 82) is consulted, and
  every text `isAfterComment` accepts is already accepted by `isInComment`
  (`CodeAnalyzer.AfterCommentNeverTriggers`).
- Accepting a three-line text moves the cursor two lines down. For
  `"if (x) {\n  return x\n}"` accepted at line 2 the cursor lands on line 4,
  column 2 (`SuggestionManager.ThreeLineCursor`).
- White space is the ECMAScript set that `trim` and `\s` use, not just
  space and tab.

## Model

| member | source | states |
|---|---|---|
| JsStrings.SplitPieces | features/playground/components/code-analyzer.tsx:22 | splitting on a line feed gives one more piece than there are line feeds, and no piece holds a line feed |
| JsStrings.JoinSplit | features/playground/components/code-analyzer.tsx:22 | joining the pieces of a split with the separator gives the text back |
| JsStrings.SplitJoin | features/playground/components/code-analyzer.tsx:22 | splitting separator-free pieces joined by the separator gives the pieces back |
| JsStrings.SubstringCut | features/playground/components/code-analyzer.tsx:24-25 | the text before and after the cursor column concatenate to the line, and the part before is as long as the clamped column |
| JsStrings.LeadingSpaceSpec | features/playground/components/code-analyzer.tsx:28-29 | the captured indentation is all white space and stops at the first other character |
| JsStrings.TrimSpec | features/playground/components/code-analyzer.tsx:32 | the trimmed text is a slice of the original, empty exactly when the original is all white space, and otherwise starts and ends on a non-space character |
| JsStrings.TrimIdempotent | features/playground/components/code-analyzer.tsx:161-162 | trimming a trimmed line changes nothing |
| JsStrings.TrimPadded | features/playground/components/code-analyzer.tsx:153 | trimming removes exactly the white-space padding around a text that starts and ends on a non-space character |
| JsStrings.RemoveChar | features/playground/components/suggestion-manager.tsx:39 | removing carriage returns leaves none and shortens the text by their count; every other character keeps its place among the others, so the result is the text with the carriage returns taken out and nothing reordered or repeated |
| JsStrings.RemoveCharAppend | features/playground/components/suggestion-manager.tsx:39 | removal distributes over concatenation: stripping two texts joined is joining the two stripped texts |
| JsStrings.RemoveCharAbsent | features/playground/components/suggestion-manager.tsx:39 | a text without carriage returns is left alone, so stripping twice is stripping once |
| JsStrings.LastSegmentUnique | features/playground/libs/file-utils.tsx:12 | a text has only one part after its last separator |
| JsStrings.SplitLastPiece | features/playground/components/suggestion-manager.tsx:123-134 | the last piece of a split is a suffix of the text, preceded by the separator when there are several pieces and the whole text otherwise |
| JsStrings.SplitLastSegment | features/playground/libs/file-utils.tsx:12 | the last piece of a split is the text after the last separator, or the whole text without one |
| CodeAnalyzer.AnalyzePosition | features/playground/components/code-analyzer.tsx:21-59 | the cursor line is the indexed piece of the line-feed split, or "" outside the buffer; before + after cursor is that line, cut at the clamped column |
| CodeAnalyzer.AnalyzeIndentation | features/playground/components/code-analyzer.tsx:27-32 | the indentation is the leading white-space run of the line, and the cursor is on a new line exactly when only white space precedes it and it is at most one column past the indentation |
| CodeAnalyzer.ShouldTriggerSuggestion | features/playground/components/code-analyzer.tsx:64-69 | never triggers inside a comment or with non-white-space text after the cursor |
| CodeAnalyzer.TriggerClosedForm | features/playground/components/code-analyzer.tsx:64-84 | for every analyzed position, the trigger holds exactly when not in a comment, only white space follows, and the line is new, follows an opening brace, or ends in one of the trigger tokens |
| CodeAnalyzer.MatchEndsTrimmed | features/playground/components/code-analyzer.tsx:75-80 | a token followed only by white space ends the text once trailing white space is dropped |
| CodeAnalyzer.TrimmedEndMatches | features/playground/components/code-analyzer.tsx:75-80 | a token ending the text after trailing white space is dropped matches `tok\s*$` |
| CodeAnalyzer.TokenThenSpaceIsTrimEnd | features/playground/components/code-analyzer.tsx:75-80 | a token followed by white space at the end of the text means the text ends in the token once trailing white space is dropped, and conversely |
| CodeAnalyzer.TokenSuffixes | features/playground/components/code-analyzer.tsx:75-81 | the seven trigger patterns together accept exactly the texts ending in `.`, `=`, `(`, `,`, `:` or `return` after trailing white space; the console pattern adds nothing |
| CodeAnalyzer.AfterCommentImpliesInComment | features/playground/components/code-analyzer.tsx:140-154 | whatever the comment-suggestion pattern accepts is already inside a comment |
| CodeAnalyzer.CommentPersists | features/playground/components/code-analyzer.tsx:140-147 | text typed after a comment marker stays inside the comment |
| CodeAnalyzer.KeywordLineIsFunctionDecl | features/playground/components/code-analyzer.tsx:115-119 | a line starting, after white space, with `function`, `def` or `fn` is a function declaration |
| CodeAnalyzer.ArrowBindingLine | features/playground/components/code-analyzer.tsx:115-119 | `const` or `let`, white space, a word, optional white space, `=`, optional white space and `(`, after leading white space, is a function declaration |
| CodeAnalyzer.FunctionDeclStarts | features/playground/components/code-analyzer.tsx:115-119 | a function declaration starts, after white space, with one of the six keywords of the pattern |
| CodeAnalyzer.KeywordLineIsClassDecl | features/playground/components/code-analyzer.tsx:132 | a line starting, after white space, with `class`, `interface` or `enum` and then white space is a class declaration |
| CodeAnalyzer.AfterCommentNeverTriggers | features/playground/components/code-analyzer.tsx:66-82 | a position the comment-suggestion pattern accepts never triggers |
| CodeAnalyzer.CommentLineMatchesCommentPattern | features/playground/components/code-analyzer.tsx:152-154 | white space, `//` and any note without line breaks (trailing white space included) match the comment-suggestion pattern |
| CodeAnalyzer.BlankIsNotComment | features/playground/components/code-analyzer.tsx:140-147 | white space before the cursor is never inside a comment |
| CodeAnalyzer.IsAfterOpenBrace | features/playground/components/code-analyzer.tsx:89-96 | true exactly when, among the three lines above the cursor, the nearest non-blank one ends in `{` once trimmed |
| CodeAnalyzer.NearestBraceLine | features/playground/components/code-analyzer.tsx:90-94 | the scan's nearest non-blank line ends in `{` exactly when some line in reach ends in `{` with only blank lines below it |
| CodeAnalyzer.OpenBraceJustAbove | features/playground/components/code-analyzer.tsx:89-96 | a line ending in `{` right above the cursor line puts the cursor after an opening brace |
| CodeAnalyzer.BlankLineAfterOpenBraceTriggers | features/playground/components/code-analyzer.tsx:64-96 | a white-space-only line right below a line ending in `{` is after an opening brace and triggers, at any column |
| CodeAnalyzer.FunctionScan | features/playground/components/code-analyzer.tsx:103-123 | the upward scan succeeds exactly when some line at or above the start, with the running closing-minus-opening brace count not positive there, declares a function |
| CodeAnalyzer.IsInFunction | features/playground/components/code-analyzer.tsx:101-124 | true exactly when some line at or above the cursor declares a function and the braces from it down to the cursor line close no more than they open |
| CodeAnalyzer.IsInClass | features/playground/components/code-analyzer.tsx:129-135 | true exactly when some line at or above the cursor starts, after white space, with `class`, `interface` or `enum` and white space |
| CodeAnalyzer.LastNonEmptyLine | features/playground/components/code-analyzer.tsx:159-165 | "" exactly when every line above is blank; otherwise the trimmed nearest non-blank line above; either way its own trim |
| SuggestionManager.Init | features/playground/components/suggestion-manager.tsx:20-28 | a new manager has no suggestion, no provider and is not accepting |
| SuggestionManager.InitConsistent | features/playground/components/suggestion-manager.tsx:20-22 | a new manager over an editor with no live provider satisfies the invariant |
| SuggestionManager.Clear | features/playground/components/suggestion-manager.tsx:58-69 | afterwards nothing is pending and no provider is held; the held provider is disposed, the widget hidden, and nothing else changes |
| SuggestionManager.ClearIdempotent | features/playground/components/suggestion-manager.tsx:58-69 | clearing twice leaves the manager and the live providers as clearing once |
| SuggestionManager.ClearConsistent | features/playground/components/suggestion-manager.tsx:58-69 | clearing keeps the invariant and leaves no live provider |
| SuggestionManager.RegisterProvider | features/playground/components/suggestion-manager.tsx:210-215 | without a pending suggestion nothing changes; with one, a single provider is appended for the editor's language and its handle held, nothing else changes, and a manager holding no provider becomes consistent with the new provider the only live one |
| SuggestionManager.ProviderLanguage | features/playground/components/suggestion-manager.tsx:260-263 | the provider a shown suggestion registers serves the model's language, or JavaScript without a model |
| SuggestionManager.ActiveLifecycle | features/playground/components/suggestion-manager.tsx:171-173 | a suggestion is active after it is shown and not after it is cleared, rejected or accepted |
| SuggestionManager.Show | features/playground/components/suggestion-manager.tsx:33-45 | afterwards the one pending suggestion is the text without carriage returns at the given anchor, the previous provider is disposed and a new one registered; apart from the provider log, the live set and the one hide command, the editor is unchanged: no edit, cursor move or callback |
| SuggestionManager.ShowConsistent | features/playground/components/suggestion-manager.tsx:33-45 | showing keeps the invariant, with the new provider the only live one |
| SuggestionManager.ShowReplacesPrevious | features/playground/components/suggestion-manager.tsx:34-42 | the previous provider is no longer live and the new suggestion holds no carriage return |
| SuggestionManager.FireDeferredTrigger | features/playground/components/suggestion-manager.tsx:48-52 | the delayed trigger asks for inline suggestions only if one is still pending |
| SuggestionManager.FireDeferredTriggerConsistent | features/playground/components/suggestion-manager.tsx:48-52 | the delayed trigger keeps the invariant |
| SuggestionManager.CursorAfter | features/playground/components/suggestion-manager.tsx:122-135 | the line advances by the number of line feeds; without one the column advances by the text length, otherwise it is one past the text after the last line feed |
| SuggestionManager.SingleLineCursorExample | features/playground/components/suggestion-manager.tsx:127-130 | "foo()" accepted at (1, 1) leaves the cursor at (1, 6) |
| SuggestionManager.ThreeLineCursor | features/playground/components/suggestion-manager.tsx:131-135 | any three-line text accepted at an anchor leaves the cursor two lines down, one column past the last line's length |
| SuggestionManager.Accept | features/playground/components/suggestion-manager.tsx:74-156 | refused unchanged when idle or already accepting; succeeds exactly with a pending suggestion, a cursor, an applied edit and a non-throwing callback; a missing cursor or refused edit leaves the whole world unchanged, provider still live; the flag is always lowered |
| SuggestionManager.NestedAcceptRefused | features/playground/components/suggestion-manager.tsx:75-83 | an accept started while one is running is refused and changes nothing |
| SuggestionManager.AcceptSuccess | features/playground/components/suggestion-manager.tsx:100-149 | a successful accept applies exactly one edit from the anchor to the cursor, moves the cursor past the text, clears the suggestion and calls the accept callback once |
| SuggestionManager.AcceptConsistent | features/playground/components/suggestion-manager.tsx:74-156 | accepting keeps the invariant on every path |
| SuggestionManager.Reject | features/playground/components/suggestion-manager.tsx:161-166 | nothing happens when idle; otherwise the suggestion is cleared and the reject callback runs once |
| SuggestionManager.RejectConsistent | features/playground/components/suggestion-manager.tsx:161-166 | rejecting keeps the invariant |
| SuggestionManager.SingleProvider | features/playground/components/suggestion-manager.tsx:171-173 | under the invariant at most one provider is live, and one is live exactly when a suggestion is pending |
| SuggestionManager.IsPositionValid | features/playground/components/suggestion-manager.tsx:178-195 | true exactly when a suggestion is pending and the position is on its line, zero to ten columns past the anchor |
| SuggestionManager.IsChangeFromSuggestion | features/playground/components/suggestion-manager.tsx:200-205 | false when idle; otherwise true exactly when the change text without carriage returns is a prefix of the suggestion |
| SuggestionManager.EmptyChangeIsFromSuggestion | features/playground/components/suggestion-manager.tsx:203-204 | a change made only of carriage returns, the empty one included, counts as coming from a pending suggestion |
| SuggestionManager.Provide | features/playground/components/suggestion-manager.tsx:216-250 | no item when idle, accepting, or outside the five-column window on the anchor line; otherwise exactly one item carrying the suggestion text at the empty range of the query position |
| SuggestionManager.ProvidedIsValid | features/playground/components/suggestion-manager.tsx:228-231 | wherever the provider offers the text, the position check accepts it |
| SuggestionManager.ClearedAnswersNo | features/playground/components/suggestion-manager.tsx:200-218 | after a clear the position check, the provenance check and the provider all answer no |
| FileUtils.Extension | features/playground/libs/file-utils.tsx:12 | the lower-cased text after the last dot, or the whole lower-cased path without a dot |
| FileUtils.FileLanguage | features/playground/libs/file-utils.tsx:11-37 | the result is always one of the nine language names |
| FileUtils.SwitchIsTable | features/playground/libs/file-utils.tsx:14-36 | the switch gives a listed extension its language and every other extension "plaintext" |
| FileUtils.FileLanguageIsTableLookup | features/playground/libs/file-utils.tsx:11-36 | a path's language is the table entry of its extension, or "plaintext" |
| FileUtils.NoDotWholePath | features/playground/libs/file-utils.tsx:12 | a path without a dot is its own (lower-cased) extension |
| FileUtils.ExtensionHasNoDot | features/playground/libs/file-utils.tsx:12 | an extension never holds a dot |
| FileUtils.AppendExtension | features/playground/libs/file-utils.tsx:12 | the extension of `stem.ext` is `ext` lower-cased, whatever the stem |
| FileUtils.ExtensionCaseInsensitive | features/playground/libs/file-utils.tsx:12 | extension and language do not depend on letter case |
| FileUtils.StemLanguage | features/playground/libs/file-utils.tsx:11-12 | `stem.ext` is looked up by `ext` lower-cased, whatever the stem |
| FileUtils.TsxAnyCase | features/playground/libs/file-utils.tsx:18-20 | `tsx` in any letter case, after any stem, is TypeScript |
| FileUtils.YamlSpellings | features/playground/libs/file-utils.tsx:31-33 | `yml` and `yaml` in any letter case, after any stem, are both YAML |
| FileUtils.NoDotUnlisted | features/playground/libs/file-utils.tsx:34-35 | a dot-free path whose lower case is not in the table, such as `Makefile`, is plain text |
| CodeEditor.LookupAsWritten | features/playground/components/code-editor.tsx:111 | an inherited value comes back only for an inherited property name equal to the lower-cased extension; any string result is a table value or "plaintext" |
| CodeEditor.InheritedReachable | features/playground/components/code-editor.tsx:111 | the lookup returns an inherited value exactly for the extensions `constructor` and `__proto__` in any case |
| CodeEditor.LowerInherited | features/playground/components/code-editor.tsx:111 | of the inherited property names only `constructor` and `__proto__` have no upper-case letter |
| CodeEditor.ConstructorLeaks | features/playground/components/code-editor.tsx:111 | the extension `constructor` yields the inherited constructor as written, and "plaintext" after the correction |
| CodeEditor.LanguageFromExtension | features/playground/components/code-editor.tsx:85-112 | the table's language for the lower-cased extension when the table has it, "plaintext" otherwise; so the result is always a table language or "plaintext" |
| CodeEditor.AsWrittenAgreesElsewhere | features/playground/components/code-editor.tsx:86-111 | away from the two inherited names the code as written returns the corrected lookup's language |
| CodeEditor.LanguageCaseInsensitive | features/playground/components/code-editor.tsx:111 | the lookup ignores letter case |
| CodeEditor.LowerLookup | features/playground/components/code-editor.tsx:86-111 | an extension without upper-case letters gets its own table entry, or "plaintext" |
| CodeEditor.TablesAgree | features/playground/components/code-editor.tsx:86-109 | the editor's table and the file tree's switch agree on every extension both know |
| CodeEditor.OnlyScssMissing | features/playground/components/code-editor.tsx:86-109 | `scss` is the only extension the file tree knows and the editor's table lacks |
| EditorShortcuts.Dispatch | features/playground/hooks/use-editor-shortcuts.tsx:22-99 | without Ctrl or Cmd, or with a key longer or shorter than one character, no action is selected |
| EditorShortcuts.HandleKeyDown | features/playground/hooks/use-editor-shortcuts.tsx:28-99 | the default is cancelled exactly when an action is selected, and a handler runs exactly when the selected action has one registered |
| EditorShortcuts.DispatchIsTable | features/playground/hooks/use-editor-shortcuts.tsx:24-99 | an action is selected exactly when a documented binding matches the key, Shift and Alt, and it is that binding's action |
| EditorShortcuts.BindingDispatches | features/playground/hooks/use-editor-shortcuts.tsx:28-99 | an event that meets a binding selects that binding's action |
| EditorShortcuts.DispatchedBinding | features/playground/hooks/use-editor-shortcuts.tsx:28-99 | a selected action's binding is met by the event |
| EditorShortcuts.ActionsDistinct | features/playground/hooks/use-editor-shortcuts.tsx:29-98 | every action has exactly one binding |
| EditorShortcuts.BindingsUnambiguous | features/playground/hooks/use-editor-shortcuts.tsx:28-99 | no event matches two bindings, so one event fires at most one action |
| EditorShortcuts.DispatchCaseInsensitive | features/playground/hooks/use-editor-shortcuts.tsx:28 | lower-casing the key changes nothing |
| EditorShortcuts.ShiftedLetters | features/playground/hooks/use-editor-shortcuts.tsx:29-77 | Ctrl+Shift+S saves all, Ctrl+Shift+F replaces, Cmd+Shift+Alt+I formats, with the upper-case keys the browser reports |
| EditorShortcuts.PlainOnlyShortcuts | features/playground/hooks/use-editor-shortcuts.tsx:38-98 | new file, go-to-line and comment fire only with Shift and Alt released |
| Responsive.Merge | features/ai-chat/hooks/use-responsive.ts:27 | every supplied threshold wins and every other keeps its default |
| Responsive.MergeNothing | features/ai-chat/hooks/use-responsive.ts:13-27 | no overrides give the defaults, which ascend |
| Responsive.Classify | features/ai-chat/hooks/use-responsive.ts:47-56 | the breakpoint's threshold is reached (or it is sm), no larger breakpoint's threshold is reached, and sm means the width is below md |
| Responsive.DeviceFlags | features/ai-chat/hooks/use-responsive.ts:43-56 | mobile is "not at least md" and desktop is "at least lg"; with md at most lg exactly one flag holds; with md to 2xl in order mobile is the sm breakpoint, tablet md, desktop lg, xl or 2xl |
| Responsive.IsAtLeast | features/ai-chat/hooks/use-responsive.ts:47-64 | with ascending thresholds and any breakpoint but sm, true exactly when the current breakpoint is that one or larger; always true for the current breakpoint (sm aside) and false for a larger one |
| Responsive.IsBelow | features/ai-chat/hooks/use-responsive.ts:47-65 | with ascending thresholds and any breakpoint but sm, true exactly when the current breakpoint is smaller; false for the current breakpoint (sm aside) and true for a larger one |
| Responsive.AtLeastIsNotBelow | features/ai-chat/hooks/use-responsive.ts:64-65 | `isAtLeast` is the negation of `isBelow` for every breakpoint |
| Responsive.MisorderedFlagsOverlap | features/ai-chat/hooks/use-responsive.ts:43-45 | with md above lg a width of lg is both mobile and desktop |
| Responsive.ClassifyMonotone | features/ai-chat/hooks/use-responsive.ts:47-56 | with ascending thresholds a wider window never gets a smaller breakpoint |
| Responsive.DefaultDesktop | features/ai-chat/hooks/use-responsive.ts:13-56 | under the defaults desktop means lg, xl or 2xl |
| Responsive.SmBelowItsThreshold | features/ai-chat/hooks/use-responsive.ts:47-65 | a width under the sm threshold is still the sm breakpoint, yet not at least sm and below sm |
| Responsive.DefaultsZeroWidth | features/ai-chat/hooks/use-responsive.ts:13-64 | under the defaults a zero width is sm but not at least sm |
| Responsive.SmNeverConsulted | features/ai-chat/hooks/use-responsive.ts:43-56 | the sm threshold changes neither the breakpoint nor the device flags |

## Left out

- Logging (`console.log`, `console.error`) is diagnostics only.
- The 50 ms timer in `showSuggestion` is left out as timing.
  - `FireDeferredTrigger` is the timer's body.
  - When it runs, relative to other calls, is not modelled.
- `generateId` reads the clock and a random source. The identifier is a parameter of `Show`.
- Monaco's own behaviour lives behind the `Host` flags and logs:
  - ranges, `executeEdits`, `trigger`, provider registration and disposal;
  - which events call the provider.
- An `executeEdits` that throws is treated like one that reports failure.
  - Both return false with the suggestion still pending, so nothing observable differs.
  - A throwing `getPosition` or `setPosition` is not modelled.
- `if (this.editor)` in `clearSuggestion` and in the timer is taken as always true.
  - The editor is set once in the constructor and never cleared.
- SuggestionManager.Accept: the accept callback runs after the suggestion is cleared.
  - A callback that re-enters the manager is not modelled.
  - Only a nested `acceptSuggestion` during the edit is modelled, by `reentersOnEdit`; other calls into the manager during the edit (a content-change listener calling `rejectSuggestion`, `clearSuggestion` or `showSuggestion`) are not.
- Positions and columns are integers.
  - JavaScript numbers that are fractional, NaN or infinite are not modelled.
- `text.length` and string indices count UTF-16 code units in JavaScript. The model counts characters.
- JsStrings.ToLower: lower-cases ASCII letters only.
  - The one non-ASCII character whose lower case is an ASCII letter is the Kelvin sign, which gives `k`.
  - No table key reachable by a lower-cased lookup contains `k`, so no lookup result differs.
- `getFileIcon` returns React nodes and is not part of this model.
- All rendering is not part of this model: the overlay, dialogs, header, status bar, file tree and layout.
- React state, window listeners, and the hooks' effect registration are not part of this model.
- The chat hook's window size starts at 0 during server rendering. The model takes the width as a parameter.
- Responsive.Merge: a key supplied but set to `undefined` overrides its default with `undefined` in the source.
  - The model only distinguishes supplied numbers from absent keys.
- Window widths and breakpoint thresholds are integers.
  - Fractional widths (as under browser zoom) and NaN or infinite thresholds are not modelled.
- The web-container service and the syntax highlighter are not part of this model.
  - One is asynchronous boot and mount coordination.
  - The other produces presentation markup.

## Findings

| source | as written | input that shows it | evidently intended | confidence | as-written member | corrected member |
|---|---|---|---|---|---|---|
| features/playground/components/code-editor.tsx:111 | `languageMap[extension.toLowerCase()] \|\| "plaintext"` indexes an object literal, so it also finds properties inherited from `Object.prototype` | the extension `constructor` (or `__proto__`, in any letter case) returns the inherited `Object` function (or the prototype object) instead of a language id | extensions missing from the table give "plaintext" | medium, not executed | CodeEditor.ConstructorLeaks | CodeEditor.LanguageFromExtension |

=== FILE: code_analyzer.dfy ===
/**
  The trigger-context analyzer: a pure function of (buffer text, zero-based
  line, zero-based column) that describes the code around the cursor and
  decides whether an inline suggestion should be requested there.

  Every regular expression of the analyzer is written out as a string
  predicate over `JsStrings`; `\s` is ECMAScript white space (`IsSpace`).
 */
module CodeAnalyzer {
  import opened JsStrings

  datatype CodeContext = CodeContext(
    line: int,
    column: int,
    currentLine: string,
    beforeCursor: string,
    afterCursor: string,
    indentLevel: nat,
    isNewLine: bool,
    isAfterOpenBrace: bool,
    isInFunction: bool,
    isInClass: bool,
    isInComment: bool,
    lastNonEmptyLine: string,
    shouldTrigger: bool)

  /** `lines[i] || ""`: an index outside the buffer reads as an empty line. */
  function LineAt(lines: seq<string>, i: int): string {
    if 0 <= i < |lines| then lines[i] else ""
  }

  // ---------------------------------------------------------------------------
  // Regular expressions as predicates
  // ---------------------------------------------------------------------------

  /** `/tok\s*$/.test(s)`: some occurrence of `tok` is followed by nothing but
      white space up to the end of `s`. */
  predicate TokenThenSpaceAtEnd(s: string, tok: string) {
    exists i :: 0 <= i <= |s| - |tok| && OccursAt(s, tok, i) && AllSpace(s[i + |tok|..])
  }

  predicate NoLineTerminator(s: string) {
    forall i :: 0 <= i < |s| ==> !IsLineTerminator(s[i])
  }

  /** `/marker.*$/.test(s)`: some occurrence of `marker` is followed by
      characters `.` matches, up to the end of `s`. */
  predicate MarkerThenRestOfLine(s: string, marker: string) {
    exists i :: 0 <= i <= |s| - |marker| && OccursAt(s, marker, i) && NoLineTerminator(s[i + |marker|..])
  }

  /** Length of the leading `\w` run. */
  function LeadingWord(s: string): (n: nat)
    ensures n <= |s|
  {
    if s == [] || !IsWordChar(s[0]) then 0 else 1 + LeadingWord(s[1..])
  }

  /** `^\s*kw\s+`: after optional white space, `kw` and at least one white-space character. */
  predicate KeywordThenSpace(line: string, kw: string) {
    var rest := TrimStart(line);
    StartsWith(rest, kw) && |rest| > |kw| && IsSpace(rest[|kw|])
  }

  /** `\s+` followed by `next`, at the start of `s`. */
  predicate SpacesThen(s: string, next: string) {
    LeadingSpace(s) > 0 && StartsWith(TrimStart(s), next)
  }

  /** `async\s+function` at the start of `s`. */
  predicate AsyncFunction(s: string) {
    StartsWith(s, "async") && SpacesThen(s[5..], "function")
  }

  /** `kw\s+\w+\s*=\s*(?:async\s+)?\(` at the start of `s`. */
  predicate ArrowBinding(s: string, kw: string) {
    StartsWith(s, kw) && LeadingSpace(s[|kw|..]) > 0 &&
    (var name := TrimStart(s[|kw|..]);
     LeadingWord(name) > 0 &&
     (var eq := TrimStart(name[LeadingWord(name)..]);
      StartsWith(eq, "=") &&
      (var value := TrimStart(eq[1..]);
       StartsWith(value, "(") || (StartsWith(value, "async") && SpacesThen(value[5..], "(")))))
  }

  /** The function-declaration pattern
      `^\s*(function|def|fn|async\s+function|const\s+\w+\s*=\s*(?:async\s+)?\(|let\s+\w+\s*=\s*(?:async\s+)?\()`.
      The alternatives carry no word boundary, so `define` and `fnord` match too. */
  predicate IsFunctionDecl(line: string) {
    var rest := TrimStart(line);
    || StartsWith(rest, "function")
    || StartsWith(rest, "def")
    || StartsWith(rest, "fn")
    || AsyncFunction(rest)
    || ArrowBinding(rest, "const")
    || ArrowBinding(rest, "let")
  }

  /** `^\s*(class|interface|enum)\s+`. */
  predicate IsClassDecl(line: string) {
    KeywordThenSpace(line, "class") || KeywordThenSpace(line, "interface") || KeywordThenSpace(line, "enum")
  }

  // ---------------------------------------------------------------------------
  // The private helpers
  // ---------------------------------------------------------------------------

  function Max(a: int, b: int): int {
    if a < b then b else a
  }

  /** A line that does not trim to nothing. */
  predicate NotBlank(line: string) {
    Trim(line) != ""
  }

  /** The upward scan shared by `isAfterOpenBrace`, `isInClass` and
      `getLastNonEmptyLine`: the index of the nearest line in [lo, i] that
      satisfies `p`, looking at `i` first, or `lo - 1` when none does. */
  function NearestAbove(lines: seq<string>, i: int, lo: int, p: string -> bool): (r: int)
    decreases i - lo
    ensures r == lo - 1 || (lo <= r <= i && p(LineAt(lines, r)))
    ensures forall k :: lo <= k <= i && r < k ==> !p(LineAt(lines, k))
  {
    if i < lo then lo - 1
    else if p(LineAt(lines, i)) then i
    else NearestAbove(lines, i - 1, lo, p)
  }

  /** The scan finds a line exactly when some line of the window satisfies `p`. */
  lemma NearestAboveFinds(lines: seq<string>, i: int, lo: int, p: string -> bool, j: int)
    requires lo <= j <= i && p(LineAt(lines, j))
    ensures NearestAbove(lines, i, lo, p) >= j
  {
  }

  /** `isAfterOpenBrace`: of the (at most three) lines above the cursor, the
      nearest non-blank one ends with `{` once trimmed. Blank lines are
      skipped; the first non-blank line decides, whatever it holds. */
  function IsAfterOpenBrace(lines: seq<string>, line: int): (r: bool)
    ensures r <==> exists j :: BraceLineAbove(lines, line, j)
  {
    var lo := Max(0, line - 3);
    var j := NearestAbove(lines, line - 1, lo, NotBlank);
    NearestBraceLine(lines, line, j);
    j >= lo && EndsWith(Trim(LineAt(lines, j)), "{")
  }

  /** Line `j` is one of the three above the cursor, ends in `{` once
      trimmed, and only blank lines separate it from the cursor line. */
  predicate BraceLineAbove(lines: seq<string>, line: int, j: int) {
    && Max(0, line - 3) <= j < line
    && NotBlank(LineAt(lines, j))
    && EndsWith(Trim(LineAt(lines, j)), "{")
    && forall k :: j < k < line ==> !NotBlank(LineAt(lines, k))
  }

  /** A brace line above the cursor is the nearest non-blank line in reach. */
  lemma NearestBraceLine(lines: seq<string>, line: int, j: int)
    requires j == NearestAbove(lines, line - 1, Max(0, line - 3), NotBlank)
    ensures (j >= Max(0, line - 3) && EndsWith(Trim(LineAt(lines, j)), "{"))
            <==> exists j' :: BraceLineAbove(lines, line, j')
  {
    var lo := Max(0, line - 3);
    if j >= lo && EndsWith(Trim(LineAt(lines, j)), "{") {
      assert BraceLineAbove(lines, line, j);
    }
    if j' :| BraceLineAbove(lines, line, j') {
      NearestAboveFinds(lines, line - 1, lo, NotBlank, j');
      assert j == j';
    }
  }

  /** Closing braces minus opening braces on one line. */
  function Net(line: string): int {
    Count(line, '}') - Count(line, '{')
  }

  /** Sum of `Net` over the lines j..i. */
  function Balance(lines: seq<string>, j: int, i: int): int
    decreases i - j
  {
    if i < j then 0 else Net(LineAt(lines, i)) + Balance(lines, j, i - 1)
  }

  /** The loop of `isInFunction`, from line `i` upwards with running brace
      count `count`: a line is tested against the declaration pattern only
      while the count, including that line's own braces, is not positive. */
  function FunctionScan(lines: seq<string>, i: int, count: int): (r: bool)
    decreases i + 1
    ensures r <==> exists j :: 0 <= j <= i && count + Balance(lines, j, i) <= 0 && IsFunctionDecl(LineAt(lines, j))
  {
    if i < 0 then false
    else
      var line := LineAt(lines, i);
      if line == "" then
        assert !IsFunctionDecl(line);
        FunctionScan(lines, i - 1, count)
      else
        var c := count + Count(line, '}') - Count(line, '{');
        if c > 0 then FunctionScan(lines, i - 1, c)
        else if IsFunctionDecl(line) then true
        else FunctionScan(lines, i - 1, c)
  }

  /** `isInFunction`: some line at or above the cursor, with no more closing
      than opening braces from it down to the cursor line, declares a function. */
  function IsInFunction(lines: seq<string>, line: int): (r: bool)
    ensures r <==> exists j :: 0 <= j <= line && Balance(lines, j, line) <= 0 && IsFunctionDecl(LineAt(lines, j))
  {
    FunctionScan(lines, line, 0)
  }

  /** `isInClass`: some line at or above the cursor opens a class, interface or enum. */
  function IsInClass(lines: seq<string>, line: int): (r: bool)
    ensures r <==> exists j :: 0 <= j <= line && j < |lines| && IsClassDecl(lines[j])
  {
    var j := NearestAbove(lines, line, 0, IsClassDecl);
    assert !IsClassDecl("");
    assert (exists j' :: 0 <= j' <= line && j' < |lines| && IsClassDecl(lines[j'])) ==> j >= 0 by {
      if j' :| 0 <= j' <= line && j' < |lines| && IsClassDecl(lines[j']) {
        NearestAboveFinds(lines, line, 0, IsClassDecl, j');
      }
    }
    j >= 0
  }

  /** `isInComment`: the text before the cursor holds a line-comment marker, a block-comment
      opener or `#`, or
      starts (after white space) with `*`. */
  predicate IsInComment(beforeCursor: string) {
    || Contains(beforeCursor, "//")
    || Contains(beforeCursor, "/*")
    || Contains(beforeCursor, "#")
    || StartsWith(TrimStart(beforeCursor), "*")
  }

  /** `isAfterComment`: the trimmed text before the cursor matches `//.*$` or `#.*$`. */
  predicate IsAfterComment(beforeCursor: string) {
    var t := Trim(beforeCursor);
    MarkerThenRestOfLine(t, "//") || MarkerThenRestOfLine(t, "#")
  }

  /** `getLastNonEmptyLine`: the trimmed nearest non-blank line strictly above
      the cursor, or "" when there is none; the result is its own trim. */
  function LastNonEmptyLine(lines: seq<string>, line: int): (r: string)
    ensures r == "" <==> forall j :: 0 <= j < line ==> !NotBlank(LineAt(lines, j))
    ensures r != "" ==> exists j :: 0 <= j < line && r == Trim(LineAt(lines, j))
                                   && forall k :: j < k < line ==> !NotBlank(LineAt(lines, k))
    ensures Trim(r) == r
  {
    var j := NearestAbove(lines, line - 1, 0, NotBlank);
    if j >= 0 then
      TrimIdempotent(LineAt(lines, j));
      Trim(LineAt(lines, j))
    else ""
  }

  // ---------------------------------------------------------------------------
  // The trigger decision and the analysis
  // ---------------------------------------------------------------------------

  /** `shouldTriggerSuggestion`: never inside a comment, never with real
      content after the cursor; otherwise on a fresh line, after an opening
      brace, or after one of the trailing tokens. */
  function ShouldTriggerSuggestion(ctx: CodeContext): (r: bool)
    ensures ctx.isInComment ==> !r
    ensures !AllSpace(ctx.afterCursor) ==> !r
  {
    var b := ctx.beforeCursor;
    TrimSpec(ctx.afterCursor);
    if ctx.isInComment then false
    else if Trim(ctx.afterCursor) != "" then false
    else
      var r :=
        || ctx.isNewLine
        || ctx.isAfterOpenBrace
        || TokenThenSpaceAtEnd(b, ".")
        || TokenThenSpaceAtEnd(b, "=")
        || TokenThenSpaceAtEnd(b, "(")
        || TokenThenSpaceAtEnd(b, ",")
        || TokenThenSpaceAtEnd(b, ":")
        || TokenThenSpaceAtEnd(b, "return")
        || TokenThenSpaceAtEnd(b, "console.")
        || IsAfterComment(b);
      r
  }

  /** Once trailing white space is dropped, the text before the cursor ends in
      `.`, `=`, `(`, `,`, `:` or `return`. */
  predicate HasTriggerSuffix(beforeCursor: string) {
    var t := TrimEnd(beforeCursor);
    || EndsWith(t, ".") || EndsWith(t, "=") || EndsWith(t, "(") || EndsWith(t, ",") || EndsWith(t, ":")
    || EndsWith(t, "return")
  }

  /** `analyzePosition`: the cursor line is the `line`-th piece of the text
      split at line feeds (empty outside the buffer) and the cursor cuts it,
      at the column clamped into the line, into the text before and after. */
  function AnalyzePosition(content: string, line: int, column: int): (ctx: CodeContext)
    ensures ctx.line == line && ctx.column == column
    ensures '\n' !in ctx.currentLine
    ensures 0 <= line < |Split(content, '\n')| ==> ctx.currentLine == Split(content, '\n')[line]
    ensures !(0 <= line < |Split(content, '\n')|) ==> ctx.currentLine == ""
    ensures ctx.beforeCursor + ctx.afterCursor == ctx.currentLine
    ensures |ctx.beforeCursor| == Clamp(column, |ctx.currentLine|)
  {
    var lines := Split(content, '\n');
    SplitPieces(content, '\n');
    var currentLine := LineAt(lines, line);
    var beforeCursor := Substring(currentLine, 0, column);
    var afterCursor := Substring(currentLine, column, |currentLine|);
    var indentLevel := LeadingSpace(currentLine);
    SubstringCut(currentLine, column);
    var described := CodeContext(
      line, column, currentLine, beforeCursor, afterCursor, indentLevel,
      Trim(beforeCursor) == "" && column <= indentLevel + 1,
      IsAfterOpenBrace(lines, line),
      IsInFunction(lines, line),
      IsInClass(lines, line),
      IsInComment(beforeCursor),
      LastNonEmptyLine(lines, line),
      false);
    described.(shouldTrigger := ShouldTriggerSuggestion(described))
  }

  // ---------------------------------------------------------------------------
  // Properties
  // ---------------------------------------------------------------------------

  /** A `tok\s*$` match means the text ends in `tok` once trailing white space
      is dropped, for any token whose last character is not white space. */
  lemma TokenThenSpaceIsTrimEnd(s: string, tok: string)
    requires tok != [] && !IsSpace(tok[|tok| - 1])
    ensures TokenThenSpaceAtEnd(s, tok) <==> EndsWith(TrimEnd(s), tok)
  {
    if TokenThenSpaceAtEnd(s, tok) {
      var i :| 0 <= i <= |s| - |tok| && OccursAt(s, tok, i) && AllSpace(s[i + |tok|..]);
      MatchEndsTrimmed(s, tok, i);
    }
    if EndsWith(TrimEnd(s), tok) {
      TrimmedEndMatches(s, tok);
    }
  }

  /** `TokenThenSpaceIsTrimEnd` for a token ending in a visible ASCII character. */
  lemma VisibleTokenThenSpace(s: string, tok: string)
    requires tok != [] && '!' <= tok[|tok| - 1] <= '~'
    ensures TokenThenSpaceAtEnd(s, tok) <==> EndsWith(TrimEnd(s), tok)
  {
    VisibleAsciiIsNotSpace(tok[|tok| - 1]);
    TokenThenSpaceIsTrimEnd(s, tok);
  }

  /** The token of a `tok\s*$` match ends where trailing white space starts. */
  lemma MatchEndsTrimmed(s: string, tok: string, i: int)
    requires tok != [] && !IsSpace(tok[|tok| - 1])
    requires 0 <= i <= |s| - |tok| && OccursAt(s, tok, i) && AllSpace(s[i + |tok|..])
    ensures EndsWith(TrimEnd(s), tok)
  {
    var e := i + |tok|;
    assert s[e - 1] == tok[|tok| - 1];
    TrailingSpaceUnique(s, |s| - e);
    var t := TrimEnd(s);
    assert t == s[..e];
    assert t[|t| - |tok|..] == s[i..e];
  }

  /** A token at the end of the trimmed text is followed by white space only. */
  lemma TrimmedEndMatches(s: string, tok: string)
    requires EndsWith(TrimEnd(s), tok)
    ensures TokenThenSpaceAtEnd(s, tok)
  {
    TrailingSpaceSpec(s);
    var e := |s| - TrailingSpace(s);
    var t := TrimEnd(s);
    assert t == s[..e];
    var i := e - |tok|;
    assert s[i..e] == t[i..] == tok;
    assert OccursAt(s, tok, i) && AllSpace(s[i + |tok|..]);
  }

  /** The regular expressions of the trigger rule reduce to `HasTriggerSuffix`:
      `console\.\s*$` is subsumed by `\.\s*$`. */
  lemma TokenSuffixes(b: string)
    ensures (|| TokenThenSpaceAtEnd(b, ".") || TokenThenSpaceAtEnd(b, "=") || TokenThenSpaceAtEnd(b, "(")
             || TokenThenSpaceAtEnd(b, ",") || TokenThenSpaceAtEnd(b, ":") || TokenThenSpaceAtEnd(b, "return")
             || TokenThenSpaceAtEnd(b, "console."))
            <==> HasTriggerSuffix(b)
  {
    VisibleTokenThenSpace(b, ".");
    VisibleTokenThenSpace(b, "=");
    VisibleTokenThenSpace(b, "(");
    VisibleTokenThenSpace(b, ",");
    VisibleTokenThenSpace(b, ":");
    VisibleTokenThenSpace(b, "return");
    VisibleTokenThenSpace(b, "console.");
    ConsoleEndsInDot(TrimEnd(b));
  }

  /** Text ending in `console.` ends in `.`. */
  lemma ConsoleEndsInDot(t: string)
    ensures EndsWith(t, "console.") ==> EndsWith(t, ".")
  {
    if EndsWith(t, "console.") {
      assert t[|t| - 1..] == "console."[7..];
    }
  }

  /** Whatever `isAfterComment` accepts, `isInComment` already accepted: the
      trimmed text is a slice of the text before the cursor. */
  lemma AfterCommentImpliesInComment(b: string)
    ensures IsAfterComment(b) ==> IsInComment(b)
  {
    var t := Trim(b);
    if MarkerThenRestOfLine(t, "//") {
      var i :| 0 <= i <= |t| - 2 && OccursAt(t, "//", i) && NoLineTerminator(t[i + 2..]);
      assert Contains(t, "//");
      TrimPreservesContains(b, "//");
    } else if MarkerThenRestOfLine(t, "#") {
      var i :| 0 <= i <= |t| - 1 && OccursAt(t, "#", i) && NoLineTerminator(t[i + 1..]);
      assert Contains(t, "#");
      TrimPreservesContains(b, "#");
    }
  }

  /** The indentation is the leading white-space run of the cursor line, and
      the cursor is on a fresh line exactly when only white space precedes it
      and it sits at most one column past that run. */
  lemma AnalyzeIndentation(content: string, line: int, column: int)
    ensures var ctx := AnalyzePosition(content, line, column);
      && ctx.indentLevel <= |ctx.currentLine|
      && AllSpace(ctx.currentLine[..ctx.indentLevel])
      && (ctx.indentLevel < |ctx.currentLine| ==> !IsSpace(ctx.currentLine[ctx.indentLevel]))
      && (ctx.isNewLine <==> AllSpace(ctx.beforeCursor) && column <= ctx.indentLevel + 1)
  {
    var ctx := AnalyzePosition(content, line, column);
    LeadingSpaceSpec(ctx.currentLine);
    TrimSpec(ctx.beforeCursor);
  }

  /** The trigger rule in closed form, for every context `AnalyzePosition`
      builds: never inside a comment, never with content after the cursor,
      and otherwise exactly on a fresh line, after an opening brace or after
      a trailing token; the comment-suggestion disjunct never decides. */
  lemma TriggerClosedForm(content: string, line: int, column: int)
    ensures var ctx := AnalyzePosition(content, line, column);
      && (ctx.isInComment <==> IsInComment(ctx.beforeCursor))
      && (ctx.shouldTrigger <==>
            (&& !IsInComment(ctx.beforeCursor)
             && AllSpace(ctx.afterCursor)
             && (ctx.isNewLine || ctx.isAfterOpenBrace || HasTriggerSuffix(ctx.beforeCursor))))
  {
    var ctx := AnalyzePosition(content, line, column);
    TrimSpec(ctx.afterCursor);
    TokenSuffixes(ctx.beforeCursor);
    AfterCommentImpliesInComment(ctx.beforeCursor);
  }

  /** White space never holds a text that starts on a non-space character. */
  lemma AllSpaceHoldsNoMarker(s: string, m: string)
    requires AllSpace(s) && m != [] && !IsSpace(m[0])
    ensures !Contains(s, m)
  {
    forall i | 0 <= i <= |s| - |m|
      ensures !OccursAt(s, m, i)
    {
      assert s[i..i + |m|][0] == s[i];
    }
  }

  /** Whatever the comment-suggestion pattern accepts never triggers: the
      comment guard has already refused it. */
  lemma AfterCommentNeverTriggers(content: string, line: int, column: int)
    requires IsAfterComment(AnalyzePosition(content, line, column).beforeCursor)
    ensures !AnalyzePosition(content, line, column).shouldTrigger
  {
    var ctx := AnalyzePosition(content, line, column);
    AfterCommentImpliesInComment(ctx.beforeCursor);
    TriggerClosedForm(content, line, column);
  }

  /** A line holding only white space, `//` and a note without line breaks
      matches the comment-suggestion pattern, so by `AfterCommentNeverTriggers`
      it never triggers. White space at the end of the note is trimmed away
      and leaves the rest of the note to `.*`. */
  lemma CommentLineMatchesCommentPattern(pad: string, note: string)
    requires AllSpace(pad) && NoLineTerminator(note)
    ensures IsAfterComment(pad + "//" + note)
  {
    var comment := "//" + note;
    assert pad + comment == pad + "//" + note;
    TrimStartPadded(pad, comment);
    var n := TrailingSpace(comment);
    TrailingSpaceSpec(comment);
    assert !IsSpace(comment[1]);
    assert n <= |note|;
    var t := Trim(pad + comment);
    assert t == comment[..|comment| - n];
    assert OccursAt(t, "//", 0);
    forall k | 0 <= k < |t| - 2
      ensures !IsLineTerminator(t[2..][k])
    {
      assert t[2..][k] == note[k];
    }
    assert MarkerThenRestOfLine(t, "//");
  }

  /** White space before the cursor is never inside a comment. */
  lemma BlankIsNotComment(b: string)
    requires AllSpace(b)
    ensures !IsInComment(b)
  {
    AllSpaceHoldsNoMarker(b, "//");
    AllSpaceHoldsNoMarker(b, "/*");
    AllSpaceHoldsNoMarker(b, "#");
    assert b[..|b|] == b;
    LeadingSpaceUnique(b, |b|);
  }

  /** A line whose trimmed text ends in `{`, right above the cursor line, puts
      the cursor after an opening brace. */
  lemma OpenBraceJustAbove(lines: seq<string>, line: int)
    requires line >= 1 && EndsWith(Trim(LineAt(lines, line - 1)), "{")
    ensures IsAfterOpenBrace(lines, line)
  {
    assert NotBlank(LineAt(lines, line - 1));
  }

  /** A white-space-only line right below a line ending in `{` (once trimmed)
      triggers, wherever the cursor sits on it. */
  lemma BlankLineAfterOpenBraceTriggers(content: string, line: int, column: int)
    requires 1 <= line < |Split(content, '\n')|
    requires EndsWith(Trim(Split(content, '\n')[line - 1]), "{")
    requires AllSpace(Split(content, '\n')[line])
    ensures var ctx := AnalyzePosition(content, line, column);
      ctx.isAfterOpenBrace && ctx.shouldTrigger
  {
    var ctx := AnalyzePosition(content, line, column);
    OpenBraceJustAbove(Split(content, '\n'), line);
    AllSpaceHalves(ctx.beforeCursor, ctx.afterCursor);
    BlankIsNotComment(ctx.beforeCursor);
    TriggerClosedForm(content, line, column);
  }
  /** Typing more text after a comment keeps the cursor in the comment: each
      marker `isInComment` looks for stays where it was, and a leading `*`
      stays leading. */
  lemma CommentPersists(a: string, c: string)
    requires IsInComment(a)
    ensures IsInComment(a + c)
  {
    var s := a + c;
    forall m | m in {"//", "/*", "#"} && Contains(a, m)
      ensures Contains(s, m)
    {
      var i :| 0 <= i <= |a| - |m| && OccursAt(a, m, i);
      assert s[i..i + |m|] == a[i..i + |m|];
      assert OccursAt(s, m, i);
    }
    if StartsWith(TrimStart(a), "*") {
      var n := LeadingSpace(a);
      LeadingSpaceSpec(a);
      assert a[n] == '*';
      assert s[..n] == a[..n] && s[n] == '*';
      LeadingSpaceUnique(s, n);
      assert TrimStart(s)[0] == '*';
    }
  }

  /** A line that starts, after white space, with `function`, `def` or `fn`
      declares a function, whatever follows. */
  lemma KeywordLineIsFunctionDecl(pad: string, kw: string, rest: string)
    requires AllSpace(pad) && kw in {"function", "def", "fn"}
    ensures IsFunctionDecl(pad + kw + rest)
  {
    assert pad + kw + rest == pad + (kw + rest);
    TrimStartPadded(pad, kw + rest);
    assert (kw + rest)[..|kw|] == kw;
  }

  /** A run of word characters followed by anything but a word character is
      exactly what `\w+` consumes. */
  lemma {:induction false} LeadingWordOf(w: string, t: string)
    requires forall i :: 0 <= i < |w| ==> IsWordChar(w[i])
    requires t == [] || !IsWordChar(t[0])
    ensures LeadingWord(w + t) == |w|
  {
    if w != [] {
      assert (w + t)[1..] == w[1..] + t;
      LeadingWordOf(w[1..], t);
    }
  }

  /** A word character is never white space. */
  lemma WordCharIsNotSpace(x: char)
    requires IsWordChar(x)
    ensures !IsSpace(x)
  {
    VisibleAsciiIsNotSpace(x);
  }

  /** White space is never a word character. */
  lemma SpaceIsNotWordChar(x: char)
    requires IsSpace(x)
    ensures !IsWordChar(x)
  {
  }

  /** `\s*=\s*\(` at the start of `sp2 + "=" + sp3 + "(" + rest`. */
  lemma EqualsThenParen(sp2: string, sp3: string, rest: string)
    requires AllSpace(sp2) && AllSpace(sp3)
    ensures var eq := TrimStart(sp2 + "=" + sp3 + "(" + rest);
      StartsWith(eq, "=") && StartsWith(TrimStart(eq[1..]), "(")
  {
    var value := "(" + rest;
    var eq := "=" + (sp3 + value);
    assert sp2 + "=" + sp3 + "(" + rest == sp2 + eq;
    VisibleAsciiIsNotSpace('=');
    TrimStartPadded(sp2, eq);
    assert eq[1..] == sp3 + value;
    VisibleAsciiIsNotSpace('(');
    TrimStartPadded(sp3, value);
  }

  /** `\s+\w+` followed by the rest of the binding: the name is the whole
      run of word characters after the white space. */
  lemma NameThenBinding(sp: string, name: string, y: string)
    requires sp != [] && AllSpace(sp)
    requires name != [] && forall i :: 0 <= i < |name| ==> IsWordChar(name[i])
    requires y == [] || !IsWordChar(y[0])
    ensures LeadingSpace(sp + name + y) > 0
    ensures var n := TrimStart(sp + name + y);
      LeadingWord(n) == |name| > 0 && n[LeadingWord(n)..] == y
  {
    var x := sp + (name + y);
    assert sp + name + y == x;
    assert x[0] == sp[0];
    WordCharIsNotSpace(name[0]);
    TrimStartPadded(sp, name + y);
    LeadingWordOf(name, y);
    assert (name + y)[|name|..] == y;
  }

  /** `kw\s+\w+\s*=\s*\(` accepts a keyword, white space, a name, `=` and
      `(` with optional white space between. */
  lemma ArrowBindingOf(kw: string, sp: string, name: string, sp2: string, sp3: string, rest: string)
    requires sp != [] && AllSpace(sp) && AllSpace(sp2) && AllSpace(sp3)
    requires name != [] && forall i :: 0 <= i < |name| ==> IsWordChar(name[i])
    ensures ArrowBinding(kw + (sp + name + (sp2 + "=" + sp3 + "(" + rest)), kw)
  {
    var y := sp2 + "=" + sp3 + "(" + rest;
    var x := sp + name + y;
    var s := kw + x;
    assert s[..|kw|] == kw && s[|kw|..] == x;
    if sp2 == [] {
      assert y[0] == '=';
    } else {
      assert y[0] == sp2[0];
      SpaceIsNotWordChar(sp2[0]);
    }
    NameThenBinding(sp, name, y);
    EqualsThenParen(sp2, sp3, rest);
  }

  /** `const name = (` and `let name = (`, with any white space the pattern
      allows around the name and the `=`, declare a function: the arrow
      alternative of the pattern accepts them. */
  lemma ArrowBindingLine(pad: string, kw: string, sp: string, name: string, sp2: string, sp3: string, rest: string)
    requires AllSpace(pad) && kw in {"const", "let"}
    requires sp != [] && AllSpace(sp) && AllSpace(sp2) && AllSpace(sp3)
    requires name != [] && forall i :: 0 <= i < |name| ==> IsWordChar(name[i])
    ensures IsFunctionDecl(pad + (kw + (sp + name + (sp2 + "=" + sp3 + "(" + rest))))
  {
    var s := kw + (sp + name + (sp2 + "=" + sp3 + "(" + rest));
    VisibleAsciiIsNotSpace(kw[0]);
    TrimStartPadded(pad, s);
    ArrowBindingOf(kw, sp, name, sp2, sp3, rest);
    ArrowIsDecl(pad + s, kw);
  }

  lemma ArrowIsDecl(line: string, kw: string)
    requires kw in {"const", "let"} && ArrowBinding(TrimStart(line), kw)
    ensures IsFunctionDecl(line)
  {
  }

  /** A function declaration starts, after white space, with one of the six
      keywords the pattern opens with. */
  lemma FunctionDeclStarts(line: string)
    requires IsFunctionDecl(line)
    ensures var rest := TrimStart(line);
      || StartsWith(rest, "function") || StartsWith(rest, "def") || StartsWith(rest, "fn")
      || StartsWith(rest, "async") || StartsWith(rest, "const") || StartsWith(rest, "let")
  {
  }

  /** A line that starts, after white space, with `class`, `interface` or
      `enum` and then white space declares a class. */
  lemma KeywordLineIsClassDecl(pad: string, kw: string, rest: string)
    requires AllSpace(pad) && kw in {"class", "interface", "enum"}
    requires rest != [] && IsSpace(rest[0])
    ensures IsClassDecl(pad + kw + rest)
  {
    assert pad + kw + rest == pad + (kw + rest);
    TrimStartPadded(pad, kw + rest);
    assert (kw + rest)[..|kw|] == kw && (kw + rest)[|kw|] == rest[0];
  }
}

=== FILE: code_editor.dfy ===
/**
  The Monaco editor's language choice: a lookup of the lower-cased file
  extension in a fixed table of language ids, "plaintext" when it is absent.

  The table is a JavaScript object literal, so the lookup also sees the
  properties every object inherits. `LookupAsWritten` models that lookup
  as the code performs it; `LanguageFromExtension` is the own-key lookup
  the table evidently intends, and is what the rest of the model uses.
 */
module CodeEditor {
  import opened JsStrings
  import FileUtils

  /** The extension to Monaco language id table. */
  const LanguageMap: map<string, string> := map[
    "js" := "javascript", "jsx" := "javascript",
    "ts" := "typescript", "tsx" := "typescript",
    "html" := "html", "css" := "css", "json" := "json",
    "md" := "markdown", "py" := "python", "java" := "java",
    "c" := "c", "cpp" := "cpp", "cs" := "csharp", "go" := "go",
    "rs" := "rust", "php" := "php", "rb" := "ruby", "sh" := "shell",
    "sql" := "sql", "yml" := "yaml", "yaml" := "yaml", "xml" := "xml"]

  /** The properties an object literal inherits from `Object.prototype`,
      each with a truthy value (a function, or the prototype itself). */
  const InheritedProperties: set<string> := {
    "constructor", "hasOwnProperty", "isPrototypeOf", "propertyIsEnumerable",
    "toLocaleString", "toString", "valueOf", "__proto__",
    "__defineGetter__", "__defineSetter__", "__lookupGetter__", "__lookupSetter__"}

  /** A value read from the table object: one of its strings, or an
      inherited property (not a string at all). */
  datatype JsValue = Str(s: string) | Inherited(name: string)

  /** `languageMap[extension.toLowerCase()] || "plaintext"` as written: an
      own key gives its language, an inherited property name gives that
      (truthy) property, anything else falls back to "plaintext". */
  function LookupAsWritten(ext: string): (v: JsValue)
    ensures v.Inherited? ==> v.name in InheritedProperties && ToLower(ext) == v.name
    ensures v.Str? ==> v.s == "plaintext" || v.s in LanguageMap.Values
  {
    var key := ToLower(ext);
    if key in LanguageMap then Str(LanguageMap[key])
    else if key in InheritedProperties then Inherited(key)
    else Str("plaintext")
  }

  /** `getLanguageFromExtension` with an own-key lookup: the table's language
      for the lower-cased extension, "plaintext" when the table lacks it. */
  function LanguageFromExtension(ext: string): (lang: string)
    ensures lang == "plaintext" || lang in LanguageMap.Values
    ensures lang != "plaintext" ==> ToLower(ext) in LanguageMap
    ensures ToLower(ext) in LanguageMap ==> lang == LanguageMap[ToLower(ext)]
    ensures ToLower(ext) !in LanguageMap ==> lang == "plaintext"
  {
    var key := ToLower(ext);
    if key in LanguageMap then LanguageMap[key] else "plaintext"
  }

  /** The lower-cased key can only reach the two inherited properties whose
      names have no upper-case letter. */
  lemma InheritedReachable(ext: string)
    ensures LookupAsWritten(ext).Inherited? <==> ToLower(ext) in {"constructor", "__proto__"}
  {
    var key := ToLower(ext);
    if key in InheritedProperties {
      LowerInherited(key);
    }
  }

  /** Every other inherited name has an upper-case letter at index 2, 3, 5
      or 8, so a lower-case key cannot be one of them. */
  lemma LowerInherited(key: string)
    requires key in InheritedProperties
    requires forall i :: 0 <= i < |key| ==> !('A' <= key[i] <= 'Z')
    ensures key in {"constructor", "__proto__"}
  {
    assert |key| > 2 ==> !('A' <= key[2] <= 'Z');
    assert |key| > 3 ==> !('A' <= key[3] <= 'Z');
    assert |key| > 5 ==> !('A' <= key[5] <= 'Z');
    assert |key| > 8 ==> !('A' <= key[8] <= 'Z');
  }

  /** Counterexample: a file named `x.constructor` makes the editor look up
      the inherited `constructor` function instead of a language id. */
  lemma ConstructorLeaks()
    ensures LookupAsWritten("constructor") == Inherited("constructor")
    ensures LanguageFromExtension("constructor") == "plaintext"
  {
    RemainsLower("constructor");
  }

  /** Away from the two reachable inherited names, the code as written and
      the own-key lookup agree. */
  lemma AsWrittenAgreesElsewhere(ext: string)
    requires ToLower(ext) !in {"constructor", "__proto__"}
    ensures LookupAsWritten(ext) == Str(LanguageFromExtension(ext))
  {
    InheritedReachable(ext);
  }

  /** The lookup ignores letter case. */
  lemma LanguageCaseInsensitive(ext: string)
    ensures LanguageFromExtension(ToLower(ext)) == LanguageFromExtension(ext)
  {
    ToLowerIdempotent(ext);
  }

  /** The editor's table and the file tree's switch agree on every extension
      both know. */
  lemma TablesAgree()
    ensures forall k :: k in FileUtils.FileTable && k in LanguageMap ==> FileUtils.FileTable[k] == LanguageMap[k]
  {
  }

  /** The file tree alone knows `scss`; every other extension it knows is in
      the editor's table. */
  lemma OnlyScssMissing()
    ensures forall k :: k in FileUtils.FileTable && k !in LanguageMap <==> k == "scss"
  {
  }

  /** An extension without upper-case letters is looked up as it is. */
  lemma LowerLookup(ext: string)
    requires forall i :: 0 <= i < |ext| ==> !('A' <= ext[i] <= 'Z')
    ensures LanguageFromExtension(ext) == if ext in LanguageMap then LanguageMap[ext] else "plaintext"
  {
    RemainsLower(ext);
  }
}

=== FILE: editor_shortcuts.dfy ===
/**
  The editor's keyboard shortcuts: a key-down event with Ctrl or Cmd held
  selects at most one editor action by its (case-folded) key and the state
  of Shift and Alt; a selected action cancels the browser's default and
  runs its handler when one is registered.
 */
module EditorShortcuts {
  import opened Options
  import opened JsStrings

  datatype Action =
    | Save | SaveAll | NewFile | CloseFile | Find | Replace | ToggleTerminal
    | TogglePreview | FormatDocument | GoToLine | Duplicate | Comment

  datatype KeyEvent = KeyEvent(ctrl: bool, meta: bool, shift: bool, alt: bool, key: string)

  /** The switch of `handleKeyDown`: the action an event selects, if any.
      Every case label is a single character, so only a key that lower-cases
      to one character can select anything, and that character decides. */
  function Dispatch(e: KeyEvent): (a: Option<Action>)
    ensures !(e.ctrl || e.meta) ==> a == None
    ensures |e.key| != 1 ==> a == None
  {
    var k := ToLower(e.key);
    if !(e.ctrl || e.meta) || |k| != 1 then None
    else
      match k[0]
      case 's' => if e.shift then Some(SaveAll) else Some(Save)
      case 'n' => if !e.shift && !e.alt then Some(NewFile) else None
      case 'w' => Some(CloseFile)
      case 'f' => if !e.shift then Some(Find) else Some(Replace)
      case '`' => Some(ToggleTerminal)
      case 'p' => if e.shift then Some(TogglePreview) else None
      case 'i' => if e.shift && e.alt then Some(FormatDocument) else None
      case 'g' => if !e.shift && !e.alt then Some(GoToLine) else None
      case 'd' => if e.shift then Some(Duplicate) else None
      case '/' => if !e.shift && !e.alt then Some(Comment) else None
      case _ => None
  }

  /** What one key-down does: whether `preventDefault` is called, and which
      handler runs. */
  datatype Outcome = Outcome(prevented: bool, invoked: Option<Action>)

  /** `handleKeyDown` with the set of actions whose handler is registered:
      the default is cancelled exactly when an action is selected, and the
      selected action's handler runs when it is registered (`?.()`). */
  function HandleKeyDown(e: KeyEvent, handlers: set<Action>): (o: Outcome)
    ensures o.prevented <==> Dispatch(e).Some?
    ensures o.invoked.Some? <==> Dispatch(e).Some? && Dispatch(e).value in handlers
    ensures o.invoked.Some? ==> o.invoked == Dispatch(e)
  {
    var a := Dispatch(e);
    Outcome(a.Some?, if a.Some? && a.value in handlers then a else None)
  }

  // ---------------------------------------------------------------------------
  // The shortcuts as a table
  // ---------------------------------------------------------------------------

  /** What a binding asks of one modifier. */
  datatype Req = Either | Held | Released

  predicate Meets(r: Req, pressed: bool) {
    match r
    case Either => true
    case Held => pressed
    case Released => !pressed
  }

  /** A binding names the one character its key lower-cases to. */
  datatype Binding = Binding(key: char, shift: Req, alt: Req, action: Action)

  /** The documented shortcuts, each as Ctrl/Cmd plus a key and the Shift and
      Alt states it needs. */
  const Bindings: seq<Binding> := [
    Binding('s', Released, Either, Save),
    Binding('s', Held, Either, SaveAll),
    Binding('n', Released, Released, NewFile),
    Binding('w', Either, Either, CloseFile),
    Binding('f', Released, Either, Find),
    Binding('f', Held, Either, Replace),
    Binding('`', Either, Either, ToggleTerminal),
    Binding('p', Held, Either, TogglePreview),
    Binding('i', Held, Held, FormatDocument),
    Binding('g', Released, Released, GoToLine),
    Binding('d', Held, Either, Duplicate),
    Binding('/', Released, Released, Comment)]

  predicate Matches(b: Binding, e: KeyEvent) {
    && (e.ctrl || e.meta)
    && |e.key| == 1 && ToLower(e.key)[0] == b.key
    && Meets(b.shift, e.shift) && Meets(b.alt, e.alt)
  }

  /** Where each action sits in the table. */
  function BindingOf(a: Action): (i: nat)
    ensures i < |Bindings| && Bindings[i].action == a
  {
    match a
    case Save => 0
    case SaveAll => 1
    case NewFile => 2
    case CloseFile => 3
    case Find => 4
    case Replace => 5
    case ToggleTerminal => 6
    case TogglePreview => 7
    case FormatDocument => 8
    case GoToLine => 9
    case Duplicate => 10
    case Comment => 11
  }

  /** Each action has one binding. */
  lemma ActionsDistinct(i: int)
    requires 0 <= i < |Bindings|
    ensures BindingOf(Bindings[i].action) == i
  {
  }

  /** A matching binding is what the switch selects. */
  lemma BindingDispatches(e: KeyEvent, i: int)
    requires 0 <= i < |Bindings| && Matches(Bindings[i], e)
    ensures Dispatch(e) == Some(Bindings[i].action)
  {
  }

  /** The switch selects an action exactly when a binding matches, and then
      it selects that binding's action. */
  lemma DispatchIsTable(e: KeyEvent)
    ensures Dispatch(e).Some? <==> exists i :: 0 <= i < |Bindings| && Matches(Bindings[i], e)
    ensures forall i :: 0 <= i < |Bindings| && Matches(Bindings[i], e) ==> Dispatch(e) == Some(Bindings[i].action)
  {
    forall i | 0 <= i < |Bindings| && Matches(Bindings[i], e)
      ensures Dispatch(e) == Some(Bindings[i].action)
    {
      BindingDispatches(e, i);
    }
    if Dispatch(e).Some? {
      DispatchedBinding(e);
    }
  }

  /** What the switch selects comes from a matching binding. */
  lemma DispatchedBinding(e: KeyEvent)
    requires Dispatch(e).Some?
    ensures Matches(Bindings[BindingOf(Dispatch(e).value)], e)
  {
  }

  /** No event matches two bindings, so one event fires at most one action. */
  lemma BindingsUnambiguous(e: KeyEvent, i: int, j: int)
    requires 0 <= i < |Bindings| && 0 <= j < |Bindings|
    requires Matches(Bindings[i], e) && Matches(Bindings[j], e)
    ensures i == j
  {
    BindingDispatches(e, i);
    BindingDispatches(e, j);
    ActionsDistinct(i);
    ActionsDistinct(j);
  }

  /** The key is compared after lower-casing: `S` and `s` select the same. */
  lemma DispatchCaseInsensitive(e: KeyEvent)
    ensures Dispatch(e.(key := ToLower(e.key))) == Dispatch(e)
  {
    ToLowerIdempotent(e.key);
  }

  /** With Shift held the browser reports an upper-case key, and the shortcut
      still fires: Ctrl+Shift+S saves everything, Ctrl+Shift+F replaces. */
  lemma ShiftedLetters()
    ensures Dispatch(KeyEvent(true, false, true, false, "S")) == Some(SaveAll)
    ensures Dispatch(KeyEvent(true, false, true, false, "F")) == Some(Replace)
    ensures Dispatch(KeyEvent(false, true, true, true, "I")) == Some(FormatDocument)
  {
    assert ToLower("S")[0] == 's';
    assert ToLower("F")[0] == 'f';
    assert ToLower("I")[0] == 'i';
  }

  /** New file, go-to-line and comment need both Shift and Alt released. */
  lemma PlainOnlyShortcuts(e: KeyEvent)
    requires Dispatch(e) in {Some(NewFile), Some(GoToLine), Some(Comment)}
    ensures !e.shift && !e.alt && (e.ctrl || e.meta)
  {
  }
}

=== FILE: file_utils.dfy ===
/**
  The file-path to language mapping used by the playground's file tree:
  the extension is whatever follows the last `.`, lower-cased, and a fixed
  switch turns it into one of nine language names.
 */
module FileUtils {
  import opened JsStrings

  /** Every name `getFileLanguage` can return. */
  const FileLanguages: set<string> :=
    {"javascript", "typescript", "json", "html", "css", "scss", "markdown", "yaml", "plaintext"}

  /** The switch as a table: the extensions it names and what each maps to. */
  const FileTable: map<string, string> := map[
    "js" := "javascript", "jsx" := "javascript",
    "ts" := "typescript", "tsx" := "typescript",
    "json" := "json", "html" := "html", "css" := "css", "scss" := "scss",
    "md" := "markdown",
    "yaml" := "yaml", "yml" := "yaml"]

  /** `filePath.split(".").pop()?.toLowerCase() || ""`: the lower-cased text
      after the last dot, or the whole lower-cased path when it has no dot.
      The split always has a last piece, so neither fallback is ever taken
      except that an empty piece stays empty. */
  function Extension(path: string): (ext: string)
    ensures LastSegment(ToLower(path), '.', ext)
  {
    var parts := Split(path, '.');
    SplitLastSegment(path, '.');
    LastSegmentToLower(path, '.', parts[|parts| - 1]);
    ToLower(parts[|parts| - 1])
  }

  /** `getFileLanguage`: the switch applied to the extension. */
  function FileLanguage(path: string): (lang: string)
    ensures lang in FileLanguages
  {
    SwitchLanguage(Extension(path))
  }

  /** The `switch` of `getFileLanguage` on an extension. */
  function SwitchLanguage(ext: string): (lang: string)
    ensures lang in FileLanguages
  {
    match ext
    case "js" => "javascript"
    case "jsx" => "javascript"
    case "ts" => "typescript"
    case "tsx" => "typescript"
    case "json" => "json"
    case "html" => "html"
    case "css" => "css"
    case "scss" => "scss"
    case "md" => "markdown"
    case "yaml" => "yaml"
    case "yml" => "yaml"
    case _ => "plaintext"
  }

  /** The switch agrees with the table: a listed extension gets its entry,
      any other gets "plaintext". */
  lemma FileLanguageIsTableLookup(path: string)
    ensures var ext := Extension(path);
      FileLanguage(path) == if ext in FileTable then FileTable[ext] else "plaintext"
  {
    SwitchIsTable(Extension(path));
  }

  lemma SwitchIsTable(ext: string)
    ensures SwitchLanguage(ext) == if ext in FileTable then FileTable[ext] else "plaintext"
  {
  }

  /** A path without a dot is its own extension. */
  lemma NoDotWholePath(path: string)
    requires '.' !in path
    ensures Extension(path) == ToLower(path)
  {
    var e := Extension(path);
    var lp := ToLower(path);
    assert forall k :: 0 <= k < |lp| ==> lp[k] != '.';
    assert |e| == |lp|;
  }

  /** The extension depends on the path only up to letter case, and so does
      the language: `A.TSX` and `a.tsx` are both TypeScript. */
  lemma {:induction false} ExtensionCaseInsensitive(path: string)
    ensures Extension(ToLower(path)) == Extension(path)
    ensures FileLanguage(ToLower(path)) == FileLanguage(path)
  {
    var lower := ToLower(path);
    ToLowerIdempotent(path);
    assert ToLower(lower) == lower;
    LastSegmentUnique(lower, '.', Extension(lower), Extension(path));
    assert FileLanguage(lower) == SwitchLanguage(Extension(path));
  }

  /** Only the last dot counts: an extension never holds a dot, so a doubled
      extension such as `tar.gz` is looked up by its final part. */
  lemma ExtensionHasNoDot(path: string)
    ensures '.' !in Extension(path)
  {
  }

  /** Upper-case spelling maps like lower-case: `A.TSX`, `b.Tsx` and `c.tsx`
      are all TypeScript. */
  lemma TsxAnyCase(stem: string, ext: string)
    requires ToLower(ext) == "tsx"
    ensures FileLanguage(stem + "." + ext) == "typescript"
  {
    StemLanguage(stem, ext);
  }

  /** `yml` and `yaml`, in any letter case, are the same language, whatever
      the file's stem. */
  lemma YamlSpellings(stem: string, ext: string)
    requires ToLower(ext) == "yml" || ToLower(ext) == "yaml"
    ensures FileLanguage(stem + "." + ext) == "yaml"
  {
    StemLanguage(stem, ext);
  }

  /** An extension after any stem is looked up in lower case, provided its
      lower case holds no dot. */
  lemma StemLanguage(stem: string, ext: string)
    requires '.' !in ToLower(ext)
    ensures FileLanguage(stem + "." + ext) == SwitchLanguage(ToLower(ext))
  {
    var l := ToLower(ext);
    forall i | 0 <= i < |ext|
      ensures ext[i] != '.'
    {
      assert l[i] == LowerChar(ext[i]) && l[i] != '.';
    }
    AppendExtension(stem, ext);
  }

  /** A path without a dot whose lower case is not in the table, such as
      `Makefile`, is plain text. */
  lemma NoDotUnlisted(path: string)
    requires '.' !in path && ToLower(path) !in FileTable
    ensures FileLanguage(path) == "plaintext"
  {
    NoDotWholePath(path);
    SwitchIsTable(ToLower(path));
  }

  /** The extension of `stem.ext`, for a dot-free `ext`. */
  lemma AppendExtension(stem: string, ext: string)
    requires '.' !in ext
    ensures Extension(stem + "." + ext) == ToLower(ext)
  {
    var path := stem + "." + ext;
    var s := ToLower(path);
    var e := ToLower(ext);
    var d := |stem| + 1;
    forall k | 0 <= k < |e|
      ensures e[k] == s[d + k] && e[k] != '.'
    {
      assert path[d + k] == ext[k];
      assert ext[k] != '.';
    }
    assert e == s[d..];
    assert path[|stem|] == '.';
    assert s[|stem|] == '.';
    assert LastSegment(s, '.', e);
    LastSegmentUnique(s, '.', Extension(path), e);
  }
}

=== FILE: js_strings.dfy ===
/**
  The ECMAScript string primitives the editor code relies on: `split`, `trim`,
  `substring`, `includes`, `startsWith`, `endsWith`, `toLowerCase` and the
  global replacement of one character. Strings are sequences of characters;
  every length is counted in characters.
 */
module JsStrings {

  /** White space and line terminators as ECMAScript defines them: exactly the
      characters a regular-expression `\s` matches and `trim` removes. */
  predicate IsSpace(c: char) {
    c in SpaceChars
  }

  const SpaceChars: set<char> := {
    '\t', '\n', '\U{000B}', '\U{000C}', '\r', ' ', '\U{00A0}', '\U{1680}',
    '\U{2000}', '\U{2001}', '\U{2002}', '\U{2003}', '\U{2004}', '\U{2005}', '\U{2006}',
    '\U{2007}', '\U{2008}', '\U{2009}', '\U{200A}',
    '\U{2028}', '\U{2029}', '\U{202F}', '\U{205F}', '\U{3000}', '\U{FEFF}'
  }

  /** No visible ASCII character is white space. */
  lemma VisibleAsciiIsNotSpace(c: char)
    requires '!' <= c <= '~'
    ensures !IsSpace(c)
  {
  }


  /** The characters a regular-expression `.` refuses to match. */
  predicate IsLineTerminator(c: char) {
    c == '\n' || c == '\r' || c == '\U{2028}' || c == '\U{2029}'
  }

  /** `\w`: an ASCII letter, digit or underscore. */
  predicate IsWordChar(c: char) {
    ('a' <= c <= 'z') || ('A' <= c <= 'Z') || ('0' <= c <= '9') || c == '_'
  }

  predicate AllSpace(s: string) {
    forall i :: 0 <= i < |s| ==> IsSpace(s[i])
  }

  /** `sub` occurs in `s` starting at index `i`. */
  predicate OccursAt(s: string, sub: string, i: int) {
    0 <= i <= |s| - |sub| && s[i..i + |sub|] == sub
  }

  /** `s.includes(sub)`. */
  predicate Contains(s: string, sub: string) {
    exists i :: 0 <= i <= |s| - |sub| && OccursAt(s, sub, i)
  }

  /** `s.startsWith(p)`. */
  predicate StartsWith(s: string, p: string) {
    |p| <= |s| && s[..|p|] == p
  }

  /** `s.endsWith(p)`. */
  predicate EndsWith(s: string, p: string) {
    |p| <= |s| && s[|s| - |p|..] == p
  }

  /** Number of occurrences of `c` in `s`. */
  function Count(s: string, c: char): nat {
    if s == [] then 0 else (if s[0] == c then 1 else 0) + Count(s[1..], c)
  }

  /** A text made only of `c` counts every one of its characters. */
  lemma {:induction false} CountUniform(s: string, c: char)
    requires forall i :: 0 <= i < |s| ==> s[i] == c
    ensures Count(s, c) == |s|
  {
    if s != [] {
      CountUniform(s[1..], c);
    }
  }

  /** Both halves of an all-space text are all space. */
  lemma AllSpaceHalves(x: string, y: string)
    requires AllSpace(x + y)
    ensures AllSpace(x) && AllSpace(y)
  {
    assert forall k :: 0 <= k < |x| ==> x[k] == (x + y)[k];
    assert forall k :: 0 <= k < |y| ==> y[k] == (x + y)[|x| + k];
  }

  /** Length of the leading white-space run: what `^(\s*)` captures. */
  function LeadingSpace(s: string): (n: nat)
    ensures n <= |s|
  {
    if s == [] || !IsSpace(s[0]) then 0 else 1 + LeadingSpace(s[1..])
  }

  /** The leading run is all white space and stops at the first other character. */
  lemma {:induction false} LeadingSpaceSpec(s: string)
    ensures var n := LeadingSpace(s); AllSpace(s[..n]) && (n < |s| ==> !IsSpace(s[n]))
  {
    if s != [] && IsSpace(s[0]) {
      LeadingSpaceSpec(s[1..]);
      var n := LeadingSpace(s[1..]);
      assert s[..n + 1] == [s[0]] + s[1..][..n];
    }
  }

  /** Length of the trailing white-space run. */
  function TrailingSpace(s: string): (n: nat)
    ensures n <= |s|
  {
    if s == [] || !IsSpace(s[|s| - 1]) then 0 else 1 + TrailingSpace(s[..|s| - 1])
  }

  /** The trailing run is all white space and stops at the last other character. */
  lemma {:induction false} TrailingSpaceSpec(s: string)
    ensures var n := TrailingSpace(s); AllSpace(s[|s| - n..]) && (n < |s| ==> !IsSpace(s[|s| - n - 1]))
  {
    if s != [] && IsSpace(s[|s| - 1]) {
      var p := s[..|s| - 1];
      TrailingSpaceSpec(p);
      var n := TrailingSpace(p);
      assert s[|s| - (n + 1)..] == p[|p| - n..] + [s[|s| - 1]];
    }
  }

  /** `s.trimStart()`: the suffix left once the leading white space is gone. */
  function TrimStart(s: string): string {
    s[LeadingSpace(s)..]
  }

  /** `s.trimEnd()`: the prefix left once the trailing white space is gone. */
  function TrimEnd(s: string): string {
    s[..|s| - TrailingSpace(s)]
  }

  /** `s.trim()`. */
  function Trim(s: string): string {
    TrimEnd(TrimStart(s))
  }

  /** The trimmed text is a slice of `s`, empty exactly when `s` is all white
      space, and otherwise starts and ends on a non-space character. */
  lemma TrimSpec(s: string)
    ensures var t := Trim(s);
      && Contains(s, t)
      && (t == [] <==> AllSpace(s))
      && (t != [] ==> !IsSpace(t[0]) && !IsSpace(t[|t| - 1]))
  {
    var u := TrimStart(s);
    var t := TrimEnd(u);
    LeadingSpaceSpec(s);
    TrailingSpaceSpec(u);
    var i := |s| - |u|;
    assert s[i..i + |t|] == t;
    assert OccursAt(s, t, i);
    if t == [] {
      assert u[|t|..] == u;
      assert s[..|s| - |u|] == s;
    } else {
      assert !IsSpace(s[i + |t| - 1]);
    }
  }

  lemma {:induction false} ContainsTransitive(s: string, t: string, m: string)
    requires Contains(s, t) && Contains(t, m)
    ensures Contains(s, m)
  {
    var i :| 0 <= i <= |s| - |t| && OccursAt(s, t, i);
    var j :| 0 <= j <= |t| - |m| && OccursAt(t, m, j);
    forall k | 0 <= k < |m|
      ensures s[i + j + k] == m[k]
    {
      assert t[j + k] == m[k];
      assert s[i..i + |t|][j + k] == s[i + j + k];
    }
    assert s[i + j..i + j + |m|] == m;
    assert OccursAt(s, m, i + j);
  }

  /** Trimming never manufactures a substring: whatever the trimmed text
      contains, the original contains too. */
  lemma TrimPreservesContains(s: string, m: string)
    requires Contains(Trim(s), m)
    ensures Contains(s, m)
  {
    TrimSpec(s);
    ContainsTransitive(s, Trim(s), m);
  }

  /** Trimming is idempotent. */
  lemma TrimIdempotent(s: string)
    ensures Trim(Trim(s)) == Trim(s)
  {
    var t := Trim(s);
    TrimSpec(s);
    if t != [] {
      assert LeadingSpace(t) == 0;
      assert TrailingSpace(t) == 0;
    }
  }

  /** The leading run is the only all-space prefix followed by a non-space
      character (or by the end of the text). */
  lemma {:induction false} LeadingSpaceUnique(s: string, n: nat)
    requires n <= |s| && AllSpace(s[..n]) && (n < |s| ==> !IsSpace(s[n]))
    ensures LeadingSpace(s) == n
  {
    if n > 0 {
      assert IsSpace(s[..n][0]);
      assert s[1..][..n - 1] == s[..n][1..];
      LeadingSpaceUnique(s[1..], n - 1);
    }
  }

  /** The trailing run is the only all-space suffix preceded by a non-space
      character (or by the start of the text). */
  lemma {:induction false} TrailingSpaceUnique(s: string, n: nat)
    requires n <= |s| && AllSpace(s[|s| - n..]) && (n < |s| ==> !IsSpace(s[|s| - n - 1]))
    ensures TrailingSpace(s) == n
  {
    if n > 0 {
      var p := s[..|s| - 1];
      assert IsSpace(s[|s| - n..][n - 1]);
      assert p[|p| - (n - 1)..] == s[|s| - n..][..n - 1];
      TrailingSpaceUnique(p, n - 1);
    }
  }

  /** White space in front of a text that starts on a non-space character is
      exactly what `trimStart` removes. */
  lemma TrimStartPadded(pad: string, t: string)
    requires AllSpace(pad) && (t == [] || !IsSpace(t[0]))
    ensures TrimStart(pad + t) == t
  {
    var s := pad + t;
    assert s[..|pad|] == pad;
    LeadingSpaceUnique(s, |pad|);
    assert s[|pad|..] == t;
  }

  /** Trimming strips exactly the white-space padding around a text that
      starts and ends on a non-space character. */
  lemma TrimPadded(a: string, t: string, b: string)
    requires AllSpace(a) && AllSpace(b)
    requires t != [] && !IsSpace(t[0]) && !IsSpace(t[|t| - 1])
    ensures Trim(a + t + b) == t
  {
    var s := a + t + b;
    assert s[..|a|] == a;
    LeadingSpaceUnique(s, |a|);
    var u := TrimStart(s);
    assert u == t + b;
    assert u[|u| - |b|..] == b;
    TrailingSpaceUnique(u, |b|);
  }

  /** `s.substring(start, end)`: both bounds are clamped into [0, |s|] and
      swapped when they arrive out of order. */
  function Substring(s: string, start: int, end: int): string {
    var a := Clamp(start, |s|);
    var b := Clamp(end, |s|);
    if a <= b then s[a..b] else s[b..a]
  }

  function Clamp(x: int, hi: nat): (r: nat)
    ensures r <= hi
  {
    if x < 0 then 0 else if x > hi then hi else x
  }

  /** Cutting at any position, clamped into the string, splits it into a
      prefix and the rest: `s.substring(0, k) + s.substring(k, s.length) == s`. */
  lemma SubstringCut(s: string, k: int)
    ensures Substring(s, 0, k) + Substring(s, k, |s|) == s
    ensures |Substring(s, 0, k)| == Clamp(k, |s|)
  {
    var c := Clamp(k, |s|);
    assert Substring(s, 0, k) == s[..c];
    assert Substring(s, k, |s|) == s[c..];
  }

  /** `s.split(sep)` for a one-character separator. */
  function Split(s: string, sep: char): (parts: seq<string>)
    ensures |parts| >= 1
  {
    if s == [] then [""]
    else
      var rest := Split(s[1..], sep);
      if s[0] == sep then [""] + rest
      else [[s[0]] + rest[0]] + rest[1..]
  }

  /** No piece of a split contains the separator, and there is one piece
      more than there are separators. */
  lemma {:induction false} SplitPieces(s: string, sep: char)
    ensures |Split(s, sep)| == Count(s, sep) + 1
    ensures forall k :: 0 <= k < |Split(s, sep)| ==> sep !in Split(s, sep)[k]
  {
    if s != [] {
      SplitPieces(s[1..], sep);
      var rest := Split(s[1..], sep);
      if s[0] != sep {
        var parts := [[s[0]] + rest[0]] + rest[1..];
        assert Split(s, sep) == parts;
        forall k | 0 <= k < |parts| ensures sep !in parts[k] {
          if k > 0 {
            assert parts[k] == rest[k];
          }
        }
      }
    }
  }

  /** The last piece of a split is the text after the last separator, or the
      whole text when there is no separator. */
  lemma {:induction false} SplitLastPiece(s: string, sep: char)
    ensures var parts := Split(s, sep); LastPiece(s, sep, parts[|parts| - 1], |parts| > 1)
  {
    if s != [] {
      var tail := s[1..];
      SplitLastPiece(tail, sep);
      SplitStep(s, sep);
      var rest := Split(tail, sep);
      var parts := Split(s, sep);
      if s[0] == sep {
        LastPieceExtend(s, sep, rest[|rest| - 1], |rest| > 1);
        assert parts[|parts| - 1] == rest[|rest| - 1] && |parts| > 1;
      } else if |rest| == 1 {
        assert rest[0] == tail;
        assert parts[|parts| - 1] == [s[0]] + tail == s;
      } else {
        LastPieceExtend(s, sep, rest[|rest| - 1], true);
        assert parts[|parts| - 1] == rest[|rest| - 1] && |parts| > 1;
      }
    }
  }

  /** One step of `Split`: a leading separator opens a new piece, any other
      character joins the first piece. */
  lemma SplitStep(s: string, sep: char)
    requires s != []
    ensures var parts := Split(s, sep); var rest := Split(s[1..], sep);
      if s[0] == sep then |parts| == |rest| + 1 && parts[|parts| - 1] == rest[|rest| - 1]
      else
        && |parts| == |rest|
        && parts[0] == [s[0]] + rest[0]
        && (|rest| > 1 ==> parts[|parts| - 1] == rest[|rest| - 1])
  {
  }

  /** A last piece of the tail stays the last piece after one more leading
      character, and now follows a separator unless that character is one. */
  lemma LastPieceExtend(s: string, sep: char, last: string, split: bool)
    requires s != [] && LastPiece(s[1..], sep, last, split) && (split || s[0] == sep)
    ensures LastPiece(s, sep, last, true)
  {
    var tail := s[1..];
    assert s[|s| - |last|..] == tail[|tail| - |last|..];
    if split {
      assert s[|s| - |last| - 1] == tail[|tail| - |last| - 1];
    }
  }

  /** `last` is the suffix of `s` after its last `sep` when `split` holds,
      and the whole of `s` when it does not. */
  predicate LastPiece(s: string, sep: char, last: string, split: bool) {
    && |last| <= |s|
    && last == s[|s| - |last|..]
    && (split ==> |last| < |s| && s[|s| - |last| - 1] == sep)
    && (!split ==> last == s)
  }

  /** `t` is the part of `s` after its last `sep`: a suffix free of `sep`,
      preceded by `sep` unless it is the whole of `s`. */
  predicate LastSegment(s: string, sep: char, t: string) {
    && |t| <= |s|
    && t == s[|s| - |t|..]
    && sep !in t
    && (|t| < |s| ==> s[|s| - |t| - 1] == sep)
  }

  /** What `s.split(sep).pop()` returns is the last segment. */
  lemma SplitLastSegment(s: string, sep: char)
    ensures var parts := Split(s, sep); LastSegment(s, sep, parts[|parts| - 1])
  {
    SplitPieces(s, sep);
    SplitLastPiece(s, sep);
  }

  /** A text has only one last segment. */
  lemma LastSegmentUnique(s: string, sep: char, a: string, b: string)
    requires LastSegment(s, sep, a) && LastSegment(s, sep, b)
    ensures a == b
  {
    assert forall k :: |s| - |a| <= k < |s| ==> s[k] == a[k - (|s| - |a|)];
    assert forall k :: |s| - |b| <= k < |s| ==> s[k] == b[k - (|s| - |b|)];
    assert |a| <= |b|;
    assert |b| <= |a|;
  }

  /** Lower-casing keeps the last segment for a separator that is not a letter. */
  lemma LastSegmentToLower(s: string, sep: char, t: string)
    requires LastSegment(s, sep, t) && !('A' <= sep <= 'Z') && !('a' <= sep <= 'z')
    ensures LastSegment(ToLower(s), sep, ToLower(t))
  {
    var ls, lt := ToLower(s), ToLower(t);
    var d := |s| - |t|;
    forall k | 0 <= k < |lt|
      ensures lt[k] == ls[d + k] && lt[k] != sep
    {
      assert t[k] == s[d + k];
      assert t[k] != sep;
    }
    assert lt == ls[d..];
    if |t| < |s| {
      assert ls[d - 1] == LowerChar(s[d - 1]);
    }
  }

  /** `parts.join(sep)`: the inverse of `Split`. */
  function Join(parts: seq<string>, sep: char): string {
    if |parts| == 0 then ""
    else if |parts| == 1 then parts[0]
    else parts[0] + [sep] + Join(parts[1..], sep)
  }

  /** Joining the pieces of a split gives back the original text. */
  lemma {:induction false} JoinSplit(s: string, sep: char)
    ensures Join(Split(s, sep), sep) == s
  {
    if s != [] {
      var rest := Split(s[1..], sep);
      JoinSplit(s[1..], sep);
      if s[0] == sep {
        assert Split(s, sep) == [""] + rest;
        assert (([""] + rest)[1..]) == rest;
      } else {
        var parts := [[s[0]] + rest[0]] + rest[1..];
        assert Split(s, sep) == parts;
        if |rest| == 1 {
          assert parts == [[s[0]] + rest[0]];
        } else {
          assert parts[1..] == rest[1..];
          assert Join(rest, sep) == rest[0] + [sep] + Join(rest[1..], sep);
        }
      }
    }
  }

  /** Splitting text that starts with a separator-free prefix `p` extends the
      first piece by `p`. */
  lemma {:induction false} SplitPrefix(p: string, tail: string, sep: char)
    requires sep !in p
    ensures Split(p + tail, sep) == [p + Split(tail, sep)[0]] + Split(tail, sep)[1..]
  {
    if p != [] {
      var s := p + tail;
      var t := Split(tail, sep);
      assert s[0] == p[0] && s[0] != sep;
      assert s[1..] == p[1..] + tail;
      var rest := Split(s[1..], sep);
      SplitCons(s, sep);
      SplitPrefix(p[1..], tail, sep);
      assert rest[0] == p[1..] + t[0] && rest[1..] == t[1..];
      assert [s[0]] + (p[1..] + t[0]) == p + t[0];
    } else {
      var parts := Split(tail, sep);
      assert p + tail == tail;
      assert p + parts[0] == parts[0];
      assert [parts[0]] + parts[1..] == parts;
    }
  }

  /** A first character other than the separator starts the first piece. */
  lemma SplitCons(s: string, sep: char)
    requires s != [] && s[0] != sep
    ensures Split(s, sep) == [[s[0]] + Split(s[1..], sep)[0]] + Split(s[1..], sep)[1..]
  {
  }

  /** Splitting separator-free pieces joined by the separator gives the pieces back. */
  lemma {:induction false} SplitJoin(parts: seq<string>, sep: char)
    requires |parts| >= 1
    requires forall k :: 0 <= k < |parts| ==> sep !in parts[k]
    ensures Split(Join(parts, sep), sep) == parts
  {
    if |parts| == 1 {
      SplitPrefix(parts[0], "", sep);
      assert parts[0] + "" == parts[0];
    } else {
      var rest := Join(parts[1..], sep);
      var tail := [sep] + rest;
      assert Join(parts, sep) == parts[0] + tail;
      SplitJoin(parts[1..], sep);
      SplitAfterSeparator(rest, sep);
      SplitPrefix(parts[0], tail, sep);
      assert parts[0] + "" == parts[0];
      assert [parts[0]] + parts[1..] == parts;
    }
  }

  lemma SplitAfterSeparator(s: string, sep: char)
    ensures Split([sep] + s, sep) == [""] + Split(s, sep)
  {
    assert ([sep] + s)[1..] == s;
  }

  /** `s.replace(/c/g, "")`: every occurrence of `c` removed, the rest kept in order. */
  function RemoveChar(s: string, c: char): (r: string)
    ensures c !in r
    ensures |r| == |s| - Count(s, c)
    ensures forall x :: x != c ==> (x in r <==> x in s)
    ensures forall i :: 0 <= i < |s| && s[i] != c ==>
      0 <= i - Count(s[..i], c) < |r| && r[i - Count(s[..i], c)] == s[i]
  {
    if s == [] then ""
    else
      CountPrefixStep(s, c);
      if s[0] == c then RemoveChar(s[1..], c)
      else [s[0]] + RemoveChar(s[1..], c)
  }

  /** Counting in a prefix of `s` is counting the first character and then
      the matching prefix of the rest. */
  lemma CountPrefixStep(s: string, c: char)
    requires s != []
    ensures Count(s[..0], c) == 0
    ensures forall i :: 0 < i <= |s| ==>
      Count(s[..i], c) == (if s[0] == c then 1 else 0) + Count(s[1..][..i - 1], c)
  {
    forall i | 0 < i <= |s|
      ensures Count(s[..i], c) == (if s[0] == c then 1 else 0) + Count(s[1..][..i - 1], c)
    {
      assert s[..i][1..] == s[1..][..i - 1];
    }
  }

  /** Removal distributes over concatenation, so the kept characters keep their order. */
  lemma {:induction false} RemoveCharAppend(a: string, b: string, c: char)
    ensures RemoveChar(a + b, c) == RemoveChar(a, c) + RemoveChar(b, c)
  {
    if a == [] {
      assert a + b == b;
    } else {
      assert (a + b)[1..] == a[1..] + b;
      RemoveCharAppend(a[1..], b, c);
    }
  }

  /** Text without the character is left alone; in particular removal is idempotent. */
  lemma {:induction false} RemoveCharAbsent(s: string, c: char)
    requires c !in s
    ensures RemoveChar(s, c) == s
  {
    if s != [] {
      assert c !in s[1..];
      RemoveCharAbsent(s[1..], c);
    }
  }

  /** ASCII case folding of one character. */
  function LowerChar(c: char): (d: char)
    ensures !('A' <= d <= 'Z')
    ensures d == c || ('A' <= c <= 'Z' && d as int == c as int + 32)
  {
    if 'A' <= c <= 'Z' then (c as int + 32) as char else c
  }

  /** `s.toLowerCase()` restricted to the ASCII letters. */
  function ToLower(s: string): (r: string)
    ensures |r| == |s|
    ensures forall i :: 0 <= i < |s| ==> r[i] == LowerChar(s[i])
  {
    seq(|s|, i requires 0 <= i < |s| => LowerChar(s[i]))
  }

  /** Text without upper-case letters is its own lower case. */
  lemma RemainsLower(s: string)
    requires forall i :: 0 <= i < |s| ==> !('A' <= s[i] <= 'Z')
    ensures ToLower(s) == s
  {
  }

  /** Lower-casing twice is lower-casing once. */
  lemma ToLowerIdempotent(s: string)
    ensures ToLower(ToLower(s)) == ToLower(s)
  {
  }
}

=== FILE: options.dfy ===
/** A value that may be absent: the model's stand-in for `null` and `undefined`. */
module Options {

  datatype Option<T> = None | Some(value: T) {

    /** The carried value, or `default` when absent (the `x ?? default` idiom). */
    function GetOr(default: T): T {
      match this
      case Some(v) => v
      case None => default
    }
  }
}

=== FILE: responsive.dfy ===
/**
  The chat panel's responsive breakpoints: five width thresholds (defaults
  overridden key by key), three device flags and the name of the current
  breakpoint, all pure functions of the window width.
 */
module Responsive {
  import opened Options

  /** The breakpoint names; `Xxl` is the one the source calls "2xl". */
  datatype Bucket = Sm | Md | Lg | Xl | Xxl

  datatype Config = Config(sm: int, md: int, lg: int, xl: int, xxl: int)

  /** A partial configuration: each threshold may be left out. */
  datatype Overrides = Overrides(sm: Option<int>, md: Option<int>, lg: Option<int>, xl: Option<int>, xxl: Option<int>)

  const Defaults: Config := Config(640, 768, 1024, 1280, 1536)

  const NoOverrides: Overrides := Overrides(None, None, None, None, None)

  /** `config[bp]`. */
  function Threshold(c: Config, b: Bucket): int {
    match b
    case Sm => c.sm
    case Md => c.md
    case Lg => c.lg
    case Xl => c.xl
    case Xxl => c.xxl
  }

  function OverrideOf(o: Overrides, b: Bucket): Option<int> {
    match b
    case Sm => o.sm
    case Md => o.md
    case Lg => o.lg
    case Xl => o.xl
    case Xxl => o.xxl
  }

  /** `{ ...defaultBreakpoints, ...breakpoints }`: every supplied key wins,
      every other key keeps its default. */
  function Merge(o: Overrides): (c: Config)
    ensures forall b :: Threshold(c, b) == OverrideOf(o, b).GetOr(Threshold(Defaults, b))
  {
    Config(o.sm.GetOr(Defaults.sm), o.md.GetOr(Defaults.md), o.lg.GetOr(Defaults.lg),
           o.xl.GetOr(Defaults.xl), o.xxl.GetOr(Defaults.xxl))
  }

  /** Position of a breakpoint in size order. */
  function Rank(b: Bucket): nat {
    match b
    case Sm => 0
    case Md => 1
    case Lg => 2
    case Xl => 3
    case Xxl => 4
  }

  /** Thresholds that grow with the breakpoints, as the defaults do. */
  predicate Ascending(c: Config) {
    c.sm <= c.md <= c.lg <= c.xl <= c.xxl
  }

  /** The `breakpoint` chain: the largest of md, lg, xl, 2xl whose threshold
      the width reaches, checked from the top, and sm when none is. The sm
      threshold itself is never consulted. */
  function Classify(c: Config, width: int): (b: Bucket)
    ensures b == Sm || width >= Threshold(c, b)
    ensures forall b' :: b' != Sm && Rank(b') > Rank(b) ==> width < Threshold(c, b')
    ensures b == Sm ==> width < c.md
  {
    if width >= c.xxl then Xxl
    else if width >= c.xl then Xl
    else if width >= c.lg then Lg
    else if width >= c.md then Md
    else Sm
  }

  datatype Flags = Flags(isMobile: bool, isTablet: bool, isDesktop: bool)

  /** `isMobile`, `isTablet` and `isDesktop`: mobile is "not at least md",
      desktop is "at least lg", and with thresholds in order the three flags
      partition the widths and agree with the breakpoint name. */
  function DeviceFlags(c: Config, width: int): (f: Flags)
    ensures f.isMobile <==> !IsAtLeast(c, width, Md)
    ensures f.isDesktop <==> IsAtLeast(c, width, Lg)
    ensures c.md <= c.lg ==>
      (if f.isMobile then 1 else 0) + (if f.isTablet then 1 else 0) + (if f.isDesktop then 1 else 0) == 1
    ensures c.md <= c.lg <= c.xl <= c.xxl ==>
      var b := Classify(c, width);
      && (f.isMobile <==> b == Sm)
      && (f.isTablet <==> b == Md)
      && (f.isDesktop <==> b in {Lg, Xl, Xxl})
  {
    Flags(width < c.md, width >= c.md && width < c.lg, width >= c.lg)
  }

  /** `isAtLeast(bp)`: for every breakpoint but sm, and thresholds in order,
      it holds exactly when the current breakpoint is `bp` or larger. A
      breakpoint above the current one is never reached, in any order. */
  function IsAtLeast(c: Config, width: int, b: Bucket): (r: bool)
    ensures Ascending(c) && b != Sm ==> (r <==> Rank(Classify(c, width)) >= Rank(b))
    ensures b != Sm && Classify(c, width) == b ==> r
    ensures Rank(b) > Rank(Classify(c, width)) ==> !r
  {
    width >= Threshold(c, b)
  }

  /** `isBelow(bp)`: the dual of `isAtLeast`. For every breakpoint but sm,
      and thresholds in order, it holds exactly when the current breakpoint
      is smaller than `bp`. */
  function IsBelow(c: Config, width: int, b: Bucket): (r: bool)
    ensures Ascending(c) && b != Sm ==> (r <==> Rank(Classify(c, width)) < Rank(b))
    ensures b != Sm && Classify(c, width) == b ==> !r
    ensures Rank(b) > Rank(Classify(c, width)) ==> r
  {
    width < Threshold(c, b)
  }

  // ---------------------------------------------------------------------------
  // Properties
  // ---------------------------------------------------------------------------

  /** With no overrides the configuration is the defaults, and the defaults
      are ascending. */
  lemma MergeNothing()
    ensures Merge(NoOverrides) == Defaults
    ensures Ascending(Defaults)
  {
    var c := Merge(NoOverrides);
    assert Threshold(c, Sm) == Defaults.sm && Threshold(c, Md) == Defaults.md && Threshold(c, Lg) == Defaults.lg;
    assert Threshold(c, Xl) == Defaults.xl && Threshold(c, Xxl) == Defaults.xxl;
  }

  /** When md > lg the flags overlap: a width between the two is both
      mobile and desktop. */
  lemma MisorderedFlagsOverlap(c: Config)
    requires c.md > c.lg
    ensures var f := DeviceFlags(c, c.lg); f.isMobile && f.isDesktop && !f.isTablet
  {
  }

  /** `isAtLeast` and `isBelow` are complements for every breakpoint. */
  lemma AtLeastIsNotBelow(c: Config, width: int, b: Bucket)
    ensures IsAtLeast(c, width, b) == !IsBelow(c, width, b)
  {
  }

  /** With ascending thresholds a wider window never gets a smaller breakpoint. */
  lemma ClassifyMonotone(c: Config, w1: int, w2: int)
    requires Ascending(c) && w1 <= w2
    ensures Rank(Classify(c, w1)) <= Rank(Classify(c, w2))
  {
  }

  /** Under the defaults, desktop means lg, xl or 2xl. */
  lemma DefaultDesktop(width: int)
    ensures DeviceFlags(Defaults, width).isDesktop <==> Classify(Defaults, width) in {Lg, Xl, Xxl}
  {
    MergeNothing();
  }

  /** The sm quirk: a width under the sm threshold is still reported as the
      sm breakpoint, while `isAtLeast("sm")` is false and `isBelow("sm")` true
      for it. */
  lemma SmBelowItsThreshold(c: Config, width: int)
    requires Ascending(c) && width < c.sm
    ensures Classify(c, width) == Sm
    ensures !IsAtLeast(c, width, Sm) && IsBelow(c, width, Sm)
  {
  }

  /** Under the defaults a zero width is sm yet not at least sm. */
  lemma DefaultsZeroWidth()
    ensures Classify(Defaults, 0) == Sm && !IsAtLeast(Defaults, 0, Sm)
  {
    MergeNothing();
    SmBelowItsThreshold(Defaults, 0);
  }

  /** The sm threshold changes nothing the hook reports except `isAtLeast`
      and `isBelow` for sm itself. */
  lemma SmNeverConsulted(c: Config, width: int, sm: int)
    ensures Classify(c.(sm := sm), width) == Classify(c, width)
    ensures DeviceFlags(c.(sm := sm), width) == DeviceFlags(c, width)
  {
  }
}

=== FILE: suggestion_manager.dfy ===
/**
  The inline-suggestion lifecycle: at most one pending AI suggestion,
  anchored at an editor position, offered through an inline-completion
  provider and either accepted (the text is written into the buffer and the
  cursor moved past it) or rejected.

  The editor is an abstract `Host` value. Each operation is a transition on a
  `World` (the manager's fields plus the host) and returns the new world; the
  host's effects are kept as logs (edits applied, editor commands triggered,
  providers registered and disposed, cursor moves, callback invocations) and
  its behaviour is fixed by a few flags (whether an edit applies, whether the
  accept callback throws, whether applying the edit re-enters the manager).
 */
module SuggestionManager {
  import opened Options
  import opened JsStrings

  /** A one-based editor position: the anchor `{line, column}` and the
      editor's `{lineNumber, column}` have the same shape. */
  datatype Pos = Pos(line: int, column: int)

  datatype Range = Range(start: Pos, end: Pos)

  datatype Suggestion = Suggestion(text: string, anchor: Pos, id: string)

  /** The two editor actions the manager triggers, under the source "ai". */
  datatype Command = TriggerInline | HideInline

  /** One edit passed to `executeEdits("ai-suggestion-accept", ...)`. */
  datatype Edit = Edit(range: Range, text: string)

  /** What the provider hands back for one query: insert `insertText` at the
      empty range `range`. */
  datatype InlineItem = InlineItem(insertText: string, range: Range)

  datatype Host = Host(
    cursor: Option<Pos>,          // what `getPosition()` returns
    language: Option<string>,     // the model's language id; None when there is no model
    editApplies: bool,            // what `executeEdits` reports
    onAcceptThrows: bool,         // the accept callback throws
    reentersOnEdit: bool,         // applying the edit calls `acceptSuggestion` again
    edits: seq<Edit>,             // edits applied, oldest first
    commands: seq<Command>,       // editor actions triggered, oldest first
    providers: seq<string>,       // provider registrations: handle k was registered for providers[k]
    live: set<nat>,               // handles registered and not yet disposed
    moves: seq<Pos>,              // `setPosition` calls, oldest first
    accepts: nat,                 // `onAccept` invocations
    rejects: nat)                 // `onReject` invocations

  datatype Manager = Manager(active: Option<Suggestion>, provider: Option<nat>, accepting: bool)

  datatype World = World(mgr: Manager, host: Host)

  /** A freshly constructed manager over `host`. */
  function Init(host: Host): (w: World)
    ensures w.mgr.active == None && w.mgr.provider == None && !w.mgr.accepting
    ensures w.host == host
  {
    World(Manager(None, None, false), host)
  }

  // ---------------------------------------------------------------------------
  // The operations
  // ---------------------------------------------------------------------------

  /** `clearSuggestion`: dispose the provider if there is one, forget the
      suggestion and hide the inline widget. */
  function Clear(w: World): (r: World)
    ensures r.mgr.active == None && r.mgr.provider == None && r.mgr.accepting == w.mgr.accepting
    ensures w.mgr.provider.Some? ==> r.host.live == w.host.live - {w.mgr.provider.value}
    ensures w.mgr.provider.None? ==> r.host.live == w.host.live
    ensures r.host == w.host.(live := r.host.live, commands := w.host.commands + [HideInline])
  {
    var host := match w.mgr.provider
      case Some(h) => w.host.(live := w.host.live - {h})
      case None => w.host;
    World(Manager(None, None, w.mgr.accepting), host.(commands := host.commands + [HideInline]))
  }

  /** `getEditorLanguage`: the model's language, "javascript" without a model. */
  function EditorLanguage(host: Host): (lang: string)
    ensures host.language.Some? ==> lang == host.language.value
    ensures host.language.None? ==> lang == "javascript"
  {
    host.language.GetOr("javascript")
  }

  /** `registerInlineProvider`: with a suggestion pending, register a new
      provider for the editor's language and remember its handle. Nothing
      else changes, and a pending suggestion with nothing registered ends up
      with exactly one live provider, the one just registered. */
  function RegisterProvider(w: World): (r: World)
    ensures w.mgr.active.None? ==> r == w
    ensures r.mgr.active == w.mgr.active && r.mgr.accepting == w.mgr.accepting
    ensures r.host == w.host.(providers := r.host.providers, live := r.host.live)
    ensures w.mgr.active.Some? ==>
      && r.mgr.provider.Some?
      && var h := r.mgr.provider.value;
      && |r.host.providers| == h + 1 && r.host.providers[..h] == w.host.providers
      && r.host.providers[h] == EditorLanguage(w.host)
      && r.host.live == w.host.live + {h}
    ensures w.mgr.active.Some? && w.mgr.provider.None? && w.host.live == {} && !w.mgr.accepting ==>
      Consistent(r) && r.host.live == {r.mgr.provider.value}
  {
    if w.mgr.active.None? then w
    else
      var h := |w.host.providers|;
      World(w.mgr.(provider := Some(h)),
            w.host.(providers := w.host.providers + [EditorLanguage(w.host)], live := w.host.live + {h}))
  }

  /** `showSuggestion`: clear whatever is pending, then hold `text` (with its
      carriage returns removed) at `anchor` and register a provider for it.
      The identifier stands for `generateId`'s value. */
  function Show(w: World, text: string, anchor: Pos, id: string): (r: World)
    ensures r.mgr.active == Some(Suggestion(RemoveChar(text, '\r'), anchor, id))
    ensures r.mgr.provider == Some(|w.host.providers|)
    ensures r.mgr.accepting == w.mgr.accepting
    ensures r.host.providers == w.host.providers + [EditorLanguage(w.host)]
    ensures r.host.live == Clear(w).host.live + {|w.host.providers|}
    ensures r.host.commands == w.host.commands + [HideInline]
    ensures r.host == w.host.(providers := r.host.providers, live := r.host.live, commands := r.host.commands)
  {
    var cleared := Clear(w);
    var pending := World(cleared.mgr.(active := Some(Suggestion(RemoveChar(text, '\r'), anchor, id))), cleared.host);
    RegisterProvider(pending)
  }

  /** The body of the 50 ms timer `showSuggestion` starts: ask for inline
      suggestions if one is still pending when it fires. */
  function FireDeferredTrigger(w: World): (r: World)
    ensures r.mgr == w.mgr
    ensures w.mgr.active.Some? ==> r.host == w.host.(commands := w.host.commands + [TriggerInline])
    ensures w.mgr.active.None? ==> r.host == w.host
  {
    if w.mgr.active.Some? then World(w.mgr, w.host.(commands := w.host.commands + [TriggerInline])) else w
  }

  /** Where the cursor goes after inserting `text` at `anchor`: past the text
      on the anchor line when it has no line feed, otherwise one column past
      the last piece, that many lines further down. */
  function CursorAfter(text: string, anchor: Pos): (p: Pos)
    ensures p.line == anchor.line + Count(text, '\n')
    ensures Count(text, '\n') == 0 ==> p.column == anchor.column + |text|
    ensures Count(text, '\n') > 0 ==>
      var tail := p.column - 1;
      0 <= tail < |text| && text[|text| - tail - 1] == '\n' && '\n' !in text[|text| - tail..]
  {
    SplitPieces(text, '\n');
    SplitLastPiece(text, '\n');
    var lines := Split(text, '\n');
    if |lines| == 1 then Pos(anchor.line, anchor.column + |text|)
    else Pos(anchor.line + |lines| - 1, |lines[|lines| - 1]| + 1)
  }

  /** The end of `acceptSuggestion`: the `finally` block resets the flag. */
  function Finish(w: World, ok: bool): (World, bool) {
    (World(w.mgr.(accepting := false), w.host), ok)
  }

  /** `acceptSuggestion`. Refused, with nothing changed, when nothing is
      pending or an accept is already running. Otherwise the flag is raised
      for the duration; the attempt fails, leaving the world exactly as it
      was, without a cursor or when the edit does not apply; on success the cursor
      moves past the text, the suggestion is cleared and `onAccept` runs, and
      the result is true unless that callback throws. Every path that raised
      the flag lowers it. */
  function Accept(w: World): (res: (World, bool))
    decreases if w.mgr.accepting then 0 else 1
    ensures var (r, ok) := res;
      && (w.mgr.active.None? || w.mgr.accepting ==> r == w && !ok)
      && (!w.mgr.accepting ==> !r.mgr.accepting)
      && (ok <==> (&& w.mgr.active.Some? && !w.mgr.accepting && w.host.cursor.Some?
                   && w.host.editApplies && !w.host.onAcceptThrows))
      && (w.mgr.active.Some? && !w.mgr.accepting && (w.host.cursor.None? || !w.host.editApplies) ==>
            r == w)
      && r.host.rejects == w.host.rejects && r.host.providers == w.host.providers
  {
    if w.mgr.active.None? || w.mgr.accepting then (w, false)
    else
      var s := w.mgr.active.value;
      var w1 := World(w.mgr.(accepting := true), w.host);
      match w.host.cursor
      case None => Finish(w1, false)
      case Some(current) =>
        if !w.host.editApplies then Finish(w1, false)
        else
          var edited := World(w1.mgr, w1.host.(edits := w1.host.edits + [Edit(Range(s.anchor, current), s.text)]));
          var w2 := if w.host.reentersOnEdit then Accept(edited).0 else edited;
          var target := CursorAfter(s.text, s.anchor);
          var moved := World(w2.mgr, w2.host.(cursor := Some(target), moves := w2.host.moves + [target]));
          var cleared := Clear(moved);
          var called := World(cleared.mgr, cleared.host.(accepts := cleared.host.accepts + 1));
          Finish(called, !w.host.onAcceptThrows)
  }

  /** `rejectSuggestion`: with a suggestion pending, clear it and call
      `onReject` once; otherwise do nothing. */
  function Reject(w: World): (r: World)
    ensures w.mgr.active.None? ==> r == w
    ensures w.mgr.active.Some? ==> r.mgr == Clear(w).mgr && r.host == Clear(w).host.(rejects := w.host.rejects + 1)
  {
    if w.mgr.active.None? then w
    else
      var cleared := Clear(w);
      World(cleared.mgr, cleared.host.(rejects := cleared.host.rejects + 1))
  }

  /** `hasActiveSuggestion`. */
  predicate HasActive(m: Manager) {
    m.active.Some?
  }

  /** Whether `q` lies on the anchor's line within `width` columns after it. */
  predicate InWindow(anchor: Pos, q: Pos, width: nat) {
    q.line == anchor.line && anchor.column <= q.column <= anchor.column + width
  }

  /** `isPositionValid`: a suggestion is pending and `q` is on its line, at
      most ten columns past its anchor. */
  function IsPositionValid(m: Manager, q: Pos): (r: bool)
    ensures r ==> m.active.Some?
    ensures m.active.Some? ==> (r <==> q.line == m.active.value.anchor.line
                                       && m.active.value.anchor.column <= q.column <= m.active.value.anchor.column + 10)
  {
    match m.active
    case None => false
    case Some(s) => InWindow(s.anchor, q, 10)
  }

  /** `isChangeFromSuggestion`: a suggestion is pending and the change text,
      with its carriage returns removed, equals the suggestion's text or is a
      prefix of it. */
  function IsChangeFromSuggestion(m: Manager, changeText: string): (r: bool)
    ensures m.active.None? ==> !r
    ensures m.active.Some? ==> (r <==> StartsWith(m.active.value.text, RemoveChar(changeText, '\r')))
  {
    match m.active
    case None => false
    case Some(s) =>
      var clean := RemoveChar(changeText, '\r');
      clean == s.text || StartsWith(s.text, clean)
  }

  /** `provideInlineCompletions` queried at `q`: nothing while idle or
      accepting or when `q` is outside the five-column window after the
      anchor; otherwise exactly the pending text, inserted at `q`. */
  function Provide(m: Manager, q: Pos): (items: seq<InlineItem>)
    ensures |items| <= 1
    ensures items != [] <==> m.active.Some? && !m.accepting && InWindow(m.active.value.anchor, q, 5)
    ensures items != [] ==> items[0] == InlineItem(m.active.value.text, Range(q, q))
  {
    if m.active.None? || m.accepting then []
    else if !InWindow(m.active.value.anchor, q, 5) then []
    else [InlineItem(m.active.value.text, Range(q, q))]
  }

  // ---------------------------------------------------------------------------
  // The invariant: at most one suggestion, and exactly its provider is live
  // ---------------------------------------------------------------------------

  /** Between calls: a suggestion is pending exactly when a provider handle is
      held, that handle was registered and is the only live one, and no
      accept is running. */
  predicate Consistent(w: World) {
    && (w.mgr.active.Some? <==> w.mgr.provider.Some?)
    && (w.mgr.provider.Some? ==> w.mgr.provider.value < |w.host.providers| && w.host.live == {w.mgr.provider.value})
    && (w.mgr.provider.None? ==> w.host.live == {})
    && !w.mgr.accepting
  }

  lemma InitConsistent(host: Host)
    requires host.live == {}
    ensures Consistent(Init(host))
  {
  }

  lemma ClearConsistent(w: World)
    requires Consistent(w)
    ensures Consistent(Clear(w)) && Clear(w).host.live == {}
  {
  }

  lemma ShowConsistent(w: World, text: string, anchor: Pos, id: string)
    requires Consistent(w)
    ensures Consistent(Show(w, text, anchor, id))
    ensures Show(w, text, anchor, id).host.live == {|w.host.providers|}
  {
    ClearConsistent(w);
  }

  lemma AcceptConsistent(w: World)
    requires Consistent(w)
    ensures Consistent(Accept(w).0)
  {
  }

  lemma RejectConsistent(w: World)
    requires Consistent(w)
    ensures Consistent(Reject(w))
  {
    ClearConsistent(w);
  }

  lemma FireDeferredTriggerConsistent(w: World)
    requires Consistent(w)
    ensures Consistent(FireDeferredTrigger(w))
  {
  }

  /** Under the invariant there is never more than one live provider. */
  lemma SingleProvider(w: World)
    requires Consistent(w)
    ensures |w.host.live| <= 1
    ensures HasActive(w.mgr) <==> |w.host.live| == 1
  {
  }

  // ---------------------------------------------------------------------------
  // Properties of single operations
  // ---------------------------------------------------------------------------

  /** Clearing twice leaves the manager as clearing once; the second call
      disposes nothing more and only hides the widget again. */
  lemma ClearIdempotent(w: World)
    ensures Clear(Clear(w)).mgr == Clear(w).mgr
    ensures Clear(Clear(w)).host.live == Clear(w).host.live
    ensures Clear(Clear(w)).host == Clear(w).host.(commands := Clear(w).host.commands + [HideInline])
    ensures !HasActive(Clear(w).mgr)
  {
  }

  /** Showing a suggestion disposes the previous provider and keeps none of
      the previous suggestion. */
  lemma ShowReplacesPrevious(w: World, text: string, anchor: Pos, id: string)
    requires Consistent(w) && HasActive(w.mgr)
    ensures w.mgr.provider.value !in Show(w, text, anchor, id).host.live
    ensures Show(w, text, anchor, id).mgr.active.value.anchor == anchor
    ensures '\r' !in Show(w, text, anchor, id).mgr.active.value.text
  {
    ClearConsistent(w);
  }

  /** A nested accept, started while the outer one is applying its edit, is
      refused and changes nothing: the guard is what keeps the edit from being
      applied twice. */
  lemma NestedAcceptRefused(w: World)
    requires w.mgr.accepting
    ensures Accept(w) == (w, false)
  {
  }

  /** A successful accept writes the text over the range from the anchor to
      the cursor, exactly once even when the edit re-enters the manager, puts
      the cursor at `CursorAfter`, clears the suggestion and calls `onAccept`
      once. */
  lemma AcceptSuccess(w: World)
    requires Consistent(w) && HasActive(w.mgr) && w.host.cursor.Some? && w.host.editApplies
    ensures var (r, _) := Accept(w);
      var s := w.mgr.active.value;
      && r.host.edits == w.host.edits + [Edit(Range(s.anchor, w.host.cursor.value), s.text)]
      && r.host.cursor == Some(CursorAfter(s.text, s.anchor))
      && r.host.moves == w.host.moves + [CursorAfter(s.text, s.anchor)]
      && !HasActive(r.mgr) && r.host.live == {}
      && r.host.accepts == w.host.accepts + 1
      && r.host.commands == w.host.commands + [HideInline]
  {
  }

  /** A one-line suggestion of five characters accepted at line 1, column 1
      leaves the cursor at column 6 of the same line. */
  lemma SingleLineCursorExample()
    ensures CursorAfter("foo()", Pos(1, 1)) == Pos(1, 6)
  {
    assert Count("foo()", '\n') == 0;
  }

  /** A three-line suggestion moves the cursor down two lines, to one column
      past its last line: `"if (x) {\n  return x\n}"` accepted at line 2,
      column 1 leaves the cursor at line 4, column 2. */
  lemma ThreeLineCursor(a: string, b: string, c: string, anchor: Pos)
    requires '\n' !in a && '\n' !in b && '\n' !in c
    ensures CursorAfter(a + "\n" + b + "\n" + c, anchor) == Pos(anchor.line + 2, |c| + 1)
  {
    var parts := [a, b, c];
    assert parts[1..] == [b, c] && [b, c][1..] == [c];
    assert Join([b, c], '\n') == b + "\n" + c;
    assert Join(parts, '\n') == a + "\n" + (b + "\n" + c);
    assert a + "\n" + (b + "\n" + c) == a + "\n" + b + "\n" + c;
    SplitJoin(parts, '\n');
  }

  /** `isPositionValid` never fails while the provider would offer the text:
      the provider's window is inside the validity window. */
  lemma ProvidedIsValid(m: Manager, q: Pos)
    requires Provide(m, q) != []
    ensures IsPositionValid(m, q)
  {
  }

  /** Any change made only of carriage returns, the empty one included,
      counts as coming from a pending suggestion. */
  lemma EmptyChangeIsFromSuggestion(m: Manager, changeText: string)
    requires m.active.Some? && forall i :: 0 <= i < |changeText| ==> changeText[i] == '\r'
    ensures IsChangeFromSuggestion(m, changeText)
  {
    CountUniform(changeText, '\r');
  }

  /** Nothing pending after a clear, so the position check, the provenance
      check and the provider all answer no. */
  lemma ClearedAnswersNo(w: World, q: Pos, changeText: string)
    ensures var m := Clear(w).mgr;
      !IsPositionValid(m, q) && !IsChangeFromSuggestion(m, changeText) && Provide(m, q) == []
  {
  }

  /** The provider `showSuggestion` registers serves the model's language,
      or JavaScript when the editor has no model. */
  lemma ProviderLanguage(w: World, text: string, anchor: Pos, id: string)
    ensures var r := Show(w, text, anchor, id);
      && r.mgr.provider.Some? && r.mgr.provider.value < |r.host.providers|
      && r.host.providers[r.mgr.provider.value] == (if w.host.language.Some? then w.host.language.value else "javascript")
  {
  }

  /** `hasActiveSuggestion` over the manager's life: true after a suggestion
      is shown, false after it is cleared, rejected or accepted. */
  lemma ActiveLifecycle(w: World, text: string, anchor: Pos, id: string)
    ensures HasActive(Show(w, text, anchor, id).mgr)
    ensures !HasActive(Clear(w).mgr)
    ensures !HasActive(Reject(w).mgr)
    ensures Accept(w).1 ==> !HasActive(Accept(w).0.mgr)
  {
  }
}
